=== FILE: README.md ===
# Blog theme scripts: a Dafny model of their state machines

The browser scripts of this blog theme hold a few small state machines. This
project models each of them as pure "state × event → state" functions and
proves what the scripts promise about them:

- **Audio-player persistence** (`js/plugins/aplayer.js`). A save writes a
  `{currentTime, isPlaying, currentIndex}` snapshot under `aplayer_state`. A
  restore seeks and maybe resumes at once, or defers that to `loadedmetadata`
  and `canplay`. `ended` deletes the snapshot. `initPlayer` replaces the page's
  one instance, retries while `#aplayer` is missing, arms the one-second save
  at most once per instance, and schedules the delayed restore.
- **Image viewer** (`js/tools/imageViewer.js`). The closure state covers the
  open flag, image index, scale, translation, drag flags and the drag throttle
  time. There is one step function per handler: image click, arrow keys,
  Escape, mask click, wheel, and mouse down/move/up/leave.
- **Theme style status** (`js/main.js`). The default `styleStatus`,
  `setStyleStatus` and `getStyleStatus`.
- **TOC toggle** (`js/tools/tocToggle.js`). The flag, the click handler that
  mirrors it into the style status and persists it, and the class layout
  derived from it.
- **Code blocks** (`js/tools/codeBlock.js`). `wrap`, the container built
  around each `figure.highlight`, the copied text, and the copy and fold icons.

Shared pieces:

- `localStorage` is a map from key to `Entry`. An entry is `Parsed(json)` for
  text `JSON.parse` accepts, or `Corrupt` for text it rejects.
- A script value that may be `undefined` is an `Option<Json>`.
- An operation that can raise returns a `Result`.
- Clock readings are integer parameters (milliseconds).
- Timers are values in a list. The caller picks which one fires.
- Things the model cannot see are parameters. These are the browser's
  autoplay policy, whether `setItem` or `destroy()` raise, what
  `new APlayer(...)` yields, and the pointer offset read from
  `getBoundingClientRect`.

Files: `wrappers.dfy` (Option, Result), `json.dfy` (parsed values,
truthiness, property read), `storage.dfy`, `player_state.dfy`,
`player_lifecycle.dfy`, `image_viewer.dfy`, `style_status.dfy`,
`toc_toggle.dfy`, `code_block.dfy`.

Three behaviours of the player code shape the model:

- The code saves `currentIndex` but never reads it back, so no restore of the
  index is modelled.
- The recurring save is never cleared, and its tick does not check whether its
  instance is still current. `PlayerLifecycle.RunTimer` therefore saves from
  the instance its closure captured, destroyed or not.
- A destroy that raises is swallowed *before* `aplayerInstance = null`. The old
  instance therefore stays referenced.

## Model

| member | source | states |
|---|---|---|
| PlayerState.Save | js/plugins/aplayer.js:19-33 | With an audio element and a working store, the stored snapshot reads back as {currentTime, isPlaying = not paused, currentIndex = list index or 0}, replacing any earlier value. With no audio element, or a failing write, the store is unchanged. No other key changes. |
| PlayerState.DecodeEncode | js/plugins/aplayer.js:23-28 | A snapshot stringified and parsed back is the same snapshot. |
| PlayerState.Ended | js/plugins/aplayer.js:140-142 | The `ended` handler removes the snapshot key and no other key. |
| PlayerState.SeekTarget | js/plugins/aplayer.js:46-53 | The `currentTime` setter accepts `null` as 0, booleans as 0 or 1 and numbers as themselves. It rejects strings and objects. |
| PlayerState.SeekAndResume | js/plugins/aplayer.js:45-49 | Seeks to the saved time. Calls `play()` only if the saved state was playing and the element is paused. The element leaves paused only if autoplay is allowed. A seek that raises yields no element. |
| PlayerState.Restore | js/plugins/aplayer.js:36-66 | No record, a corrupt record, or a record without `currentTime` changes nothing. With `readyState >= 2` the element ends exactly as `SeekAndResume` leaves it: at the saved time, with one `play()` call exactly when `isPlaying` is truthy and the element is paused, and playing afterwards when autoplay allows. A saved time the setter rejects changes nothing. Below 2 the only change is one appended `loadedmetadata` and one `canplay` listener carrying the saved time. |
| PlayerState.FireMedia | js/plugins/aplayer.js:52-59 | After a signal, no listener for it remains and the listeners for the other signal are kept. |
| PlayerState.RunHandlers | js/plugins/aplayer.js:52-59 | Running listeners in order keeps the listener list, the readiness and the autoplay policy. Each listener calls `play()` at most once. When the last listener's target is accepted, the element ends at that time. |
| PlayerState.FireMediaTwice | js/plugins/aplayer.js:58-59 | Each once-listener fires at most once: repeating the signal changes nothing. |
| PlayerState.DeferredRestoreOnLoadedMetadata | js/plugins/aplayer.js:50-59 | A deferred restore, once `loadedmetadata` arrives, performs the same seek and resume as an immediate restore. Only the `canplay` listener is left. |
| PlayerState.DeferredResumesOnce | js/plugins/aplayer.js:50-59 | On a fresh element, `loadedmetadata` then `canplay` both seek to the saved time. With autoplay allowed, `play()` is called once at most, because the second listener finds the element playing. No listener remains. |
| PlayerState.DeferredRestoreOnCanPlay | js/plugins/aplayer.js:50-59 | On an element whose metadata is already loaded, `canplay` alone performs the same seek and resume as an immediate restore. The `loadedmetadata` listener stays registered. |
| PlayerState.StaleListenerSeeksBack | js/plugins/aplayer.js:52-58 | That leftover listener fires on the next metadata load and seeks back to the saved time, wherever playback has moved since. It then leaves no listener. |
| PlayerState.RestoreDefers | js/plugins/aplayer.js:50-59 | On an element that is not ready, restoring a full snapshot changes nothing but the two appended listeners. |
| PlayerState.RestoreAfterEnded | js/plugins/aplayer.js:140-142 | After `ended`, a restore is a no-op. |
| PlayerState.SaveThenRestore | js/plugins/aplayer.js:19-49 | Save from one instance, then restore into a ready element of the next. The new element is at the old time and calls `play()` exactly when the old one was playing and the new one is paused. |
| PlayerLifecycle.FreshValid | js/plugins/aplayer.js:77-84 | A page with no instance yet satisfies the timer invariant and the one-live-instance property. |
| PlayerLifecycle.Teardown | js/plugins/aplayer.js:76-84 | When `destroy()` succeeds, the current instance is marked destroyed and the reference cleared. When it raises, or nothing is referenced, the page is unchanged. Storage, timers and every other instance are untouched. |
| PlayerLifecycle.InitPlayer | js/plugins/aplayer.js:69-150 | Without the container, only a 50 ms retry is appended. Otherwise the old instance is destroyed unless destroy raises, and every earlier instance and pending timer, recurring saves included, is kept. For "mini" or "fixed" exactly one instance is added and made current, with no interval armed. The timers gain the lyrics click at +50 ms for "fixed" only, then the restore at +200 ms. For any other type no instance or timer is added. `Valid` is kept. `OneLive` is kept when `destroy()` does not raise. A raising `destroy()` leaves the old instance live beside the new one. |
| PlayerLifecycle.TimeUpdate | js/plugins/aplayer.js:117-129 | The first `timeupdate` on an instance with an audio element marks the interval armed and appends exactly one recurring save due 1000 ms later. Nothing else changes. Later events, or an instance without an audio element, change nothing. The instance never has more than one recurring save. |
| PlayerLifecycle.AtMostOneInterval | js/plugins/aplayer.js:117-129 | However many `timeupdate` events arrive, an instance has at most one recurring save timer. |
| PlayerLifecycle.PlayOrPause | js/plugins/aplayer.js:133-139 | With `on` available, `play`/`pause` store the instance's snapshot, which reads back as its time, playing flag and list index. Only the state key changes. A failing write, a missing audio element or a missing `on` leave the page unchanged. |
| PlayerLifecycle.EndedEvent | js/plugins/aplayer.js:140-142 | With `on` available, `ended` removes the snapshot and no other storage key, so every later restore is a no-op. Instances, timers, the current instance, the player type and the container flag are unchanged. Without `on`, nothing changes. |
| PlayerLifecycle.MediaSignal | js/plugins/aplayer.js:52-59 | A readiness signal runs the instance element's listeners for that signal, as `FireMedia` states, and leaves none of them behind. Every other instance, the storage, the timers, the current instance, the player type and the container flag are unchanged. Without an audio element, nothing changes. |
| PlayerLifecycle.RunTimer | js/plugins/aplayer.js:69-150 | A recurring save stores the captured instance's snapshot and stays scheduled 1000 ms later. A delayed restore restores the captured instance and is removed. A lyrics click only disappears. None of these three changes the current instance, the player type or the container flag. A retry is removed and runs `initPlayer` again. `Valid` is kept. `OneLive` is kept when `destroy()` does not raise. A raising `destroy()` leaves the old instance live beside the new one. |
| PlayerLifecycle.RetryCreatesInstance | js/plugins/aplayer.js:69-74 | Once the container is present, a pending retry on a "mini" or "fixed" page creates the instance from the construction, makes it current and schedules its restore. |
| PlayerLifecycle.RetryWhileMissing | js/plugins/aplayer.js:71-74 | While the container is missing, a firing retry is replaced by the next one 50 ms later. Nothing else changes. |
| ImageViewer.Clamp | js/tools/imageViewer.js:53 | The clamped scale lies in [0.8, 4]. It equals the input when the input is in range and the nearer bound otherwise, because `min`/`max` return an operand. |
| ImageViewer.ClampIdempotent | js/tools/imageViewer.js:53 | Clamping a clamped scale changes nothing. |
| ImageViewer.Rem | js/tools/imageViewer.js:160-162 | The remainder has the sign of the dividend and is smaller than n in magnitude. It is the identity on (-n, n) and subtracts n once on [n, 2n). |
| ImageViewer.ArrowIndex | js/tools/imageViewer.js:158-162 | Up/Left go to the previous index and wrap from 0 to n-1. Down/Right go to the next and wrap from n-1 to 0. Other keys keep the index. The result is in [0, n). |
| ImageViewer.ArrowsInverse | js/tools/imageViewer.js:158-162 | Left then Right, and Right then Left, return to the same index. |
| ImageViewer.FullCycle | js/tools/imageViewer.js:161-162 | n presses of Right over n images return to the start. |
| ImageViewer.ClickImage | js/tools/imageViewer.js:146-152 | Clicking page image k opens the viewer at index k and shows that image's `src`. It registers the Escape listener. Scale, translation, drag flags, pointer position and throttle time are kept. A click on an index with no image changes nothing. |
| ImageViewer.ArrowKey | js/tools/imageViewer.js:155-177 | While closed, or for a non-arrow key, nothing changes. Otherwise the index moves as `ArrowIndex` says and the viewer shows the reached image's source. A `lazyload` image is switched to its `data-src` and loses the mark. Other images stay unchanged. |
| ImageViewer.Escape | js/tools/imageViewer.js:131-142 | Escape closes, resets scale to 1 and translation to 0, and unregisters, only while registered and open. It changes no other closure variable. Otherwise nothing changes. |
| ImageViewer.MaskClickStep | js/tools/imageViewer.js:115-125 | Without a preceding drag, a mask click closes and resets scale and translation. After a drag it changes nothing else. `dragged` is cleared either way. No other closure variable changes. |
| ImageViewer.Zoom | js/tools/imageViewer.js:44-66 | The scale moves by `deltaY * -0.001`, clamped to [0.8, 4]. A wheel that does not increase the scale recentres the translation. One that does shifts it by the pointer offset times the scale gain. No other closure variable changes. |
| ImageViewer.DragStart | js/tools/imageViewer.js:69-75 | Mouse down records the button and the pointer position, and nothing else. |
| ImageViewer.Drag | js/tools/imageViewer.js:77-97 | The translation moves by the pointer delta, and `dragged`, the pointer position and the throttle time are set, only while the button is down and at least 100 ms after the last accepted move. Otherwise nothing changes. No other closure variable changes. |
| ImageViewer.DragEnd | js/tools/imageViewer.js:100-106 | Mouse up/leave releases the button and changes nothing else. |
| ImageViewer.DragThenClickKeepsOpen | js/tools/imageViewer.js:69-125 | A press, an accepted move and a release move the image by the pointer delta. The click that ends the drag leaves the viewer open and clears `dragged`. The next mask click closes it. |
| ImageViewer.ClickWithoutDragCloses | js/tools/imageViewer.js:69-125 | A press and release with no accepted move in between is a plain click, and the mask click closes the viewer. |
| ImageViewer.InitialInv | js/tools/imageViewer.js:8-16 | The initial closure state satisfies the viewer invariant. |
| ImageViewer.Step | js/tools/imageViewer.js:108-179 | Every event keeps the invariant: the index stays in [0, n), an open viewer has its Escape listener, and the scale stays in [0.8, 4]. While the viewer is closed, only an image click opens it. |
| ImageViewer.RunKeepsBounds | js/tools/imageViewer.js:145-179 | After any event sequence from the initial state, the index is in [0, n) and the scale in [0.8, 4]. |
| StyleStatus.Defaults | js/main.js:28-33 | The defaults have exactly the four keys: width not expanded, font level 0, aside open. `isDark` is truthy exactly when the configured default mode is "dark". |
| StyleStatus.Serialize | js/main.js:42 | Stringifying keeps exactly the keys whose value is not `undefined`, with their values. |
| StyleStatus.SetStyleStatus | js/main.js:39-44 | Stores the serialised status under `REDEFINE-THEME-STATUS` and changes no other key. |
| StyleStatus.GetStyleStatus | js/main.js:45-56 | With nothing stored, it returns `null` and the status is unchanged. Corrupt text raises a SyntaxError. A stored `null` raises a TypeError when the status has a key. Otherwise it returns the parsed value and gives exactly the status's existing keys the stored values, `undefined` where missing. It raises in no other case. |
| StyleStatus.SetThenGet | js/main.js:39-52 | A set followed by a get leaves the status unchanged and returns the stored object. |
| StyleStatus.GetIdempotent | js/main.js:45-56 | Repeating a successful get from the same storage changes nothing further. |
| TocToggle.Init | js/tools/tocToggle.js:18-29 | The flag starts closed and the bar is not yet displayed. The elements found on the page are kept as given. |
| TocToggle.ToggleClassName | js/tools/tocToggle.js:32-36 | A missing element stays missing. On a present one, the class is present iff the condition holds and the other classes are kept. |
| TocToggle.Layout | js/tools/tocToggle.js:37-43 | `fas`, `fa-indent`, `show-toc` and `has-toc` are present iff open, and `fa-outdent` iff closed. Every other class and every missing element is untouched. |
| TocToggle.LayoutExclusive | js/tools/tocToggle.js:38-40 | After a layout the icon never carries both `fa-indent` and `fa-outdent`. |
| TocToggle.LayoutIdempotent | js/tools/tocToggle.js:37-43 | Laying out twice with the same flag equals laying out once. |
| TocToggle.Click | js/tools/tocToggle.js:21-28 | Without a toggle bar, no listener exists and nothing changes. Otherwise the flag flips, `styleStatus.isOpenPageAside` becomes the new flag, and the status is stored. The elements get the layout of the new flag, so every element stays present or missing and only the managed classes change. |
| TocToggle.ClickPersists | js/tools/tocToggle.js:24-26 | After a click, the stored status reads back unchanged and holds the new flag. |
| TocToggle.TwoClicksRestore | js/tools/tocToggle.js:24-27 | From a consistent state, two clicks restore the flag and every class list. |
| TocToggle.PageAsideHandle | js/tools/tocToggle.js:45-49 | Without a toggle bar it raises a TypeError. Otherwise the bar is displayed, the flag equals the argument, and the elements get the layout of that flag. Only the managed classes change. |
| CodeBlock.Wrap | js/tools/codeBlock.js:8-12 | The wrapper takes the element's position with the element appended as its last child. Every other sibling stays in place. |
| CodeBlock.UnwrapWrap | js/tools/codeBlock.js:8-12 | Taking the last child back out of the wrapper restores the original siblings. |
| CodeBlock.Container | js/tools/codeBlock.js:15-25 | The container is a `div.highlight-container` whose children are the wrapped figure, then the copy button, then the fold button. |
| CodeBlock.DecorateAll | js/tools/codeBlock.js:14-25 | Every node keeps its position. Each `figure.highlight` becomes a container whose first child is the figure. Every other node keeps its tag and classes. |
| CodeBlock.Decorate | js/tools/codeBlock.js:14-25 | A `figure.highlight` becomes a `div.highlight-container` holding the figure, then a copy button, then a fold button. Other nodes keep their tag and classes. |
| CodeBlock.DecorateAllFacts | js/tools/codeBlock.js:14-25 | On a page without containers, the number of containers added equals the number of highlight figures. Removing the containers gives the page back. |
| CodeBlock.Built | js/tools/codeBlock.js:18-25 | A new container starts unfolded, with the chevron-down and copy icons. |
| CodeBlock.Join | js/tools/codeBlock.js:31 | No lines give the empty text. The text starts with the first line, and with more than one line a break follows it. |
| CodeBlock.JoinSeparators | js/tools/codeBlock.js:30-31 | k ≥ 1 lines without line breaks are joined with exactly k-1 line breaks. |
| CodeBlock.SplitJoin | js/tools/codeBlock.js:30-31 | Splitting the copied text at line breaks gives back the lines in order. |
| CodeBlock.CopyClick | js/tools/codeBlock.js:29-43 | A copy click shows the check mark and schedules a reset 1000 ms later. The copied text splits back into the lines, with k-1 breaks. Fold state is untouched. |
| CodeBlock.CopiedText | js/tools/codeBlock.js:30-31 | For k ≥ 1 lines without line breaks, the copied text splits back into those lines and holds exactly k-1 breaks. |
| CodeBlock.Advance | js/tools/codeBlock.js:40-42 | When a reset is due, the copy icon returns. With none due, the icon stays. Only later resets remain pending. |
| CodeBlock.CopyIconCycle | js/tools/codeBlock.js:37-42 | After a copy click with no pending reset, the check mark shows for less than 1000 ms, and from 1000 ms on the copy icon is back. |
| CodeBlock.FoldClick | js/tools/codeBlock.js:45-52 | A fold click flips `folded`. Afterwards the icon is chevron-up iff folded and chevron-down iff not. |
| CodeBlock.FoldTwice | js/tools/codeBlock.js:45-52 | From a consistent state, two fold clicks restore the folded state and the icon. |

## Left out

- The page-transition hooks of js/plugins/aplayer.js:153-191 (`visit:start`, `content:replace`, `swup:contentReplaced`, the first `initPlayer`) are left out. So are `main.refresh`, `initMain`, `printThemeInfo` and the other swup/DOMContentLoaded registrations. They only wire events to the modelled operations and to libraries that are not shown.
- js/tools/runtime.js (floating-point date arithmetic) and js/tools/scrollTopBottom.js (stateless calls to `window.scrollTo`) are not part of this model.
- Restoring `currentIndex` is not modelled, because the code never reads it back.
- PlayerState.Restore: the media element clamps a seek to [0, duration]. That clamp is not modelled, so a saved time applied to a shorter track is taken as is. Since `currentIndex` is not restored, the saved time may belong to another track.
- Playback itself is not modelled. No lifecycle event advances an element's `currentTime` or changes `paused`. A save therefore stores the state the element had when constructed or last restored.
- Numbers are unbounded reals. IEEE rounding (for example in `deltaY * -0.001`) is not modelled.
- The APlayer library is not modelled. What construction yields, and whether `destroy()` raises, are inputs. A destroy that raises is taken to leave the old instance live, since its effects are not visible. What `destroy()` does to the audio element, and the lyrics click itself, are not modelled.
- A player's audio element is its `audio` field. The `document.querySelector('#aplayer audio')` fallback is not modelled separately.
- `play()` is settled at once: the element leaves paused exactly when autoplay is allowed. The asynchronous promise and its logged rejection are not modelled.
- Readiness signals do not raise `readyState`. The browser's media pipeline is not modelled.
- A seek to a stored string or object is treated as raising. The setter's numeric conversion of strings is not modelled. `null` and booleans convert to 0/1.
- JSON arrays are not modelled. A property read sees only an object's own fields.
- An empty stored string is not a separate entry. Both readers test the text's truthiness, so it behaves as a missing key.
- The `console.error` calls in the save and restore catch blocks, the `console.log` of a rejected `play()`, and the image viewer's `console.warn` early exits are not modelled. A caught error is modelled only as leaving the state unchanged.
- `setStyleStatus` raising (quota, storage disabled) is not modelled. Unlike the player's save, nothing catches it there.
- PlayerState.Ended: `localStorage.removeItem` raising when storage is disabled is not modelled. The handler would then propagate the error with the store unchanged.
- StyleStatus.GetStyleStatus: `localStorage.getItem` raising when storage is disabled is not modelled. Only the parse error and the `null` read raise in the model.
- CodeBlock.CopyClick: `navigator.clipboard` being undefined (a page served outside a secure context) is not modelled. There `writeText` raises a TypeError before the check mark is shown or the reset scheduled. The model always shows and schedules both.
- PlayerLifecycle.InitPlayer: `new APlayer(...)` raising is not modelled. The construction is an input, so the case where the old instance is already destroyed and no new one is made is not covered.
- The image viewer's early exits when its container or image is missing (js/tools/imageViewer.js:19-33) are not modelled. Neither are the CSS transform strings, cursor styles and `body.style.overflow`. A `lazyload` image without `data-src` is not modelled either.
- The pointer offset used on zoom-in is an input. The source computes it from `getBoundingClientRect`.
- The code lines' `innerText` are an input of the copy click. `navigator.clipboard.writeText` is reduced to the text it receives.
- Races between overlapping page transitions and timer interleavings are left to the caller. The caller chooses the order in which events and timers fire.
- ImageViewer.Zoom: the zoom-in translation is stated in terms of the pointer offset input, not of the element geometry.

=== FILE: code_block.dfy ===
/**
 * The code-block controls of js/tools/codeBlock.js: the `wrap` helper, the
 * container built around every `figure.highlight`, the text the copy button
 * writes to the clipboard, and the two buttons' icon state.
 */
module CodeBlock {

  /** A document node: an element with its tag, class list and children, or text. */
  datatype Node =
    | Element(tag: string, classes: set<string>, children: seq<Node>)
    | Text(text: string)

  const CopyIcon: set<string> := {"fa-regular", "fa-copy"}
  const CheckIcon: set<string> := {"fa-regular", "fa-check"}
  const FoldDownIcon: set<string> := {"fa-solid", "fa-chevron-down"}
  const FoldUpIcon: set<string> := {"fa-solid", "fa-chevron-up"}
  /** How long the check mark stays after a copy (ms). */
  const CopiedFor: int := 1000

  /**
   * `element.wrap(wrapper)` for the child at position `i` of its parent: the
   * wrapper takes the element's place and the element becomes its last child.
   */
  function Wrap(siblings: seq<Node>, i: nat, wrapper: Node): (r: seq<Node>)
    requires i < |siblings| && wrapper.Element?
    ensures |r| == |siblings|
    ensures r[i].Element? && r[i].tag == wrapper.tag && r[i].classes == wrapper.classes
    ensures r[i].children == wrapper.children + [siblings[i]]
    ensures forall j :: 0 <= j < |siblings| && j != i ==> r[j] == siblings[j]
  {
    siblings[..i] + [wrapper.(children := wrapper.children + [siblings[i]])] + siblings[i+1..]
  }

  /** Takes the last child of the node at position `i` back out to that position. */
  function Unwrap(siblings: seq<Node>, i: nat): seq<Node>
    requires i < |siblings| && siblings[i].Element? && |siblings[i].children| > 0
  {
    siblings[..i] + [siblings[i].children[|siblings[i].children| - 1]] + siblings[i+1..]
  }

  /** Unwrapping undoes a wrap. */
  lemma UnwrapWrap(siblings: seq<Node>, i: nat, wrapper: Node)
    requires i < |siblings| && wrapper.Element?
    ensures Unwrap(Wrap(siblings, i, wrapper), i) == siblings
  {
  }

  predicate IsHighlight(n: Node) {
    n.Element? && n.tag == "figure" && "highlight" in n.classes
  }

  function CopyButton(): Node {
    Element("div", {"copy-button"}, [Element("i", CopyIcon, [])])
  }

  function FoldButton(): Node {
    Element("div", {"fold-button"}, [Element("i", FoldDownIcon, [])])
  }

  /**
   * The `div.highlight-container` built around one figure: an empty `div`
   * wraps the figure, takes the class, and gets the copy button and then the
   * fold button appended after it.
   */
  function Container(figure: Node): (r: Node)
    ensures r.Element? && r.tag == "div" && r.classes == {"highlight-container"}
    ensures r.children == [figure, CopyButton(), FoldButton()]
  {
    var wrapped := Wrap([figure], 0, Element("div", {}, []))[0];
    wrapped.(classes := wrapped.classes + {"highlight-container"},
             children := wrapped.children + [CopyButton(), FoldButton()])
  }

  predicate IsContainer(n: Node) {
    n.Element? && n.tag == "div" && n.classes == {"highlight-container"} && |n.children| == 3
  }

  /** `initCopyCode` over a forest: every `figure.highlight`, nested ones included, is wrapped in its own container. */
  function DecorateAll(ns: seq<Node>): (r: seq<Node>)
    ensures |r| == |ns|
    ensures forall i :: 0 <= i < |ns| ==> IsHighlight(ns[i]) ==> IsContainer(r[i]) && IsHighlight(r[i].children[0])
    ensures forall i :: 0 <= i < |ns| ==> !IsHighlight(ns[i]) ==>
      (r[i].Element? <==> ns[i].Element?) && (r[i].Element? ==> r[i].tag == ns[i].tag && r[i].classes == ns[i].classes)
    decreases ns
  {
    if ns == [] then [] else [Decorate(ns[0])] + DecorateAll(ns[1..])
  }

  function Decorate(n: Node): (r: Node)
    ensures IsHighlight(n) ==>
      r.Element? && |r.children| == 3 && r == Container(r.children[0]) && IsHighlight(r.children[0])
    ensures !IsHighlight(n) ==> (r.Element? <==> n.Element?) && (r.Element? ==> r.tag == n.tag && r.classes == n.classes)
    decreases n
  {
    match n
    case Text(_) => n
    case Element(tag, classes, children) =>
      var inner := Element(tag, classes, DecorateAll(children));
      if IsHighlight(n) then Container(inner) else inner
  }

  /** The number of highlight figures in a forest. */
  function Highlights(ns: seq<Node>): nat
    decreases ns
  {
    if ns == [] then 0 else HighlightsIn(ns[0]) + Highlights(ns[1..])
  }

  function HighlightsIn(n: Node): nat
    decreases n
  {
    match n
    case Text(_) => 0
    case Element(_, _, children) => (if IsHighlight(n) then 1 else 0) + Highlights(children)
  }

  /** The number of containers in a forest. */
  function Containers(ns: seq<Node>): nat
    decreases ns
  {
    if ns == [] then 0 else ContainersIn(ns[0]) + Containers(ns[1..])
  }

  function ContainersIn(n: Node): nat
    decreases n
  {
    match n
    case Text(_) => 0
    case Element(_, _, children) => (if IsContainer(n) then 1 else 0) + Containers(children)
  }

  /** Removes every container, putting its first child in its place. */
  function StripAll(ns: seq<Node>): (r: seq<Node>)
    ensures |r| == |ns|
    decreases ns
  {
    if ns == [] then [] else [Strip(ns[0])] + StripAll(ns[1..])
  }

  function Strip(n: Node): Node
    decreases n
  {
    match n
    case Text(_) => n
    case Element(tag, classes, children) =>
      if IsContainer(n) then Strip(children[0]) else Element(tag, classes, StripAll(children))
  }

  /**
   * On a page without containers, decoration adds exactly one container per
   * highlight figure, and removing the containers gives the page back.
   */
  lemma {:induction false} DecorateAllFacts(ns: seq<Node>)
    requires Containers(ns) == 0
    ensures Containers(DecorateAll(ns)) == Highlights(ns)
    ensures StripAll(DecorateAll(ns)) == ns
    decreases ns
  {
    if ns != [] {
      DecorateFacts(ns[0]);
      DecorateAllFacts(ns[1..]);
      assert DecorateAll(ns)[1..] == DecorateAll(ns[1..]);
      assert ns == [ns[0]] + ns[1..];
    }
  }

  lemma {:induction false} DecorateFacts(n: Node)
    requires ContainersIn(n) == 0
    ensures ContainersIn(Decorate(n)) == HighlightsIn(n)
    ensures Strip(Decorate(n)) == n
    decreases n
  {
    match n
    case Text(_) =>
    case Element(tag, classes, children) =>
      DecorateAllFacts(children);
      var inner := Element(tag, classes, DecorateAll(children));
      assert !IsContainer(inner);
      assert ContainersIn(inner) == Containers(DecorateAll(children));
      assert Strip(inner) == n;
      if IsHighlight(n) {
        ButtonsPlain();
        var c := Container(inner);
        assert c.children[1..] == [CopyButton(), FoldButton()];
        assert Containers(c.children) == ContainersIn(inner) + Containers([CopyButton(), FoldButton()]);
      }
  }

  /** The two buttons hold no container. */
  lemma ButtonsPlain()
    ensures Containers([CopyButton(), FoldButton()]) == 0
  {
  }

  /** `lines.join("\n")`. */
  function Join(lines: seq<string>): (r: string)
    ensures |lines| == 0 ==> r == ""
    ensures |lines| > 0 ==> lines[0] <= r
    ensures |lines| > 1 ==> |r| > |lines[0]| && r[|lines[0]|] == '\n'
    decreases |lines|
  {
    if |lines| == 0 then ""
    else if |lines| == 1 then lines[0]
    else lines[0] + "\n" + Join(lines[1..])
  }

  /** Occurrences of a character in a string. */
  function Count(s: string, c: char): nat
    decreases |s|
  {
    if |s| == 0 then 0 else (if s[0] == c then 1 else 0) + Count(s[1..], c)
  }

  lemma {:induction false} CountAppend(a: string, b: string, c: char)
    ensures Count(a + b, c) == Count(a, c) + Count(b, c)
    decreases |a|
  {
    if |a| == 0 {
      assert a + b == b;
    } else {
      assert (a + b)[1..] == a[1..] + b;
      CountAppend(a[1..], b, c);
    }
  }

  predicate NoNewline(s: string) {
    forall k :: 0 <= k < |s| ==> s[k] != '\n'
  }

  lemma {:induction false} CountNone(s: string, c: char)
    requires forall k :: 0 <= k < |s| ==> s[k] != c
    ensures Count(s, c) == 0
    decreases |s|
  {
    if |s| > 0 {
      CountNone(s[1..], c);
    }
  }

  /** `k` lines without line breaks are joined with exactly `k - 1` line breaks. */
  lemma {:induction false} JoinSeparators(lines: seq<string>)
    requires |lines| > 0
    requires forall i :: 0 <= i < |lines| ==> NoNewline(lines[i])
    ensures Count(Join(lines), '\n') == |lines| - 1
    decreases |lines|
  {
    CountNone(lines[0], '\n');
    if |lines| > 1 {
      JoinSeparators(lines[1..]);
      CountAppend(lines[0] + "\n", Join(lines[1..]), '\n');
      CountAppend(lines[0], "\n", '\n');
      assert Count("\n", '\n') == 1 by {
        assert "\n"[1..] == "";
      }
    }
  }

  /** Splits text at every line break: the inverse of `Join` on lines without breaks. */
  function Split(s: string): (r: seq<string>)
    ensures |r| > 0
    decreases |s|
  {
    if |s| == 0 then [""]
    else
      var rest := Split(s[1..]);
      if s[0] == '\n' then [""] + rest
      else [[s[0]] + rest[0]] + rest[1..]
  }

  lemma {:induction false} SplitNoNewline(s: string)
    requires NoNewline(s)
    ensures Split(s) == [s]
    decreases |s|
  {
    if |s| > 0 {
      SplitNoNewline(s[1..]);
      assert [s[0]] + s[1..] == s;
    }
  }

  lemma {:induction false} SplitPrefix(a: string, b: string)
    requires NoNewline(a)
    ensures Split(a + "\n" + b) == [a] + Split(b)
    decreases |a|
  {
    if |a| == 0 {
      assert a + "\n" + b == "\n" + b;
      assert ("\n" + b)[1..] == b;
    } else {
      assert (a + "\n" + b)[1..] == a[1..] + "\n" + b;
      SplitPrefix(a[1..], b);
      assert [a[0]] + a[1..] == a;
    }
  }

  /** Splitting the copied text at line breaks gives back the lines, when no line contains a break. */
  lemma {:induction false} SplitJoin(lines: seq<string>)
    requires |lines| > 0
    requires forall i :: 0 <= i < |lines| ==> NoNewline(lines[i])
    ensures Split(Join(lines)) == lines
    decreases |lines|
  {
    if |lines| == 1 {
      SplitNoNewline(lines[0]);
    } else {
      SplitJoin(lines[1..]);
      SplitPrefix(lines[0], Join(lines[1..]));
      assert lines == [lines[0]] + lines[1..];
    }
  }

  /** One block's controls: its fold state, the two icons, and the pending icon resets (due times). */
  datatype Controls = Controls(folded: bool, foldIcon: set<string>, copyIcon: set<string>, resets: seq<int>)

  /** The controls of a freshly built container. */
  function Built(): (c: Controls)
    ensures !c.folded && c.foldIcon == FoldDownIcon && c.copyIcon == CopyIcon && c.resets == []
  {
    Controls(false, FoldDownIcon, CopyIcon, [])
  }

  /** The fold button's click handler. */
  function FoldClick(c: Controls): (r: Controls)
    ensures r.folded == !c.folded
    ensures r.foldIcon == FoldUpIcon <==> r.folded
    ensures r.foldIcon == FoldDownIcon <==> !r.folded
    ensures r.copyIcon == c.copyIcon && r.resets == c.resets
  {
    var folded := !c.folded;
    c.(folded := folded, foldIcon := if folded then FoldUpIcon else FoldDownIcon)
  }

  predicate FoldConsistent(c: Controls) {
    c.foldIcon == (if c.folded then FoldUpIcon else FoldDownIcon)
  }

  /** Two fold clicks from a consistent state give it back. */
  lemma FoldTwice(c: Controls)
    requires FoldConsistent(c)
    ensures FoldClick(FoldClick(c)) == c
  {
  }

  /** The copy button's click handler at time `now`: the clipboard text, and the check mark until a reset fires. */
  function CopyClick(c: Controls, lines: seq<string>, now: int): (r: (Controls, string))
    ensures r.0.copyIcon == CheckIcon
    ensures r.0.resets == c.resets + [now + CopiedFor]
    ensures r.0.folded == c.folded && r.0.foldIcon == c.foldIcon
    ensures |lines| > 0 && (forall i :: 0 <= i < |lines| ==> NoNewline(lines[i])) ==>
      Split(r.1) == lines && Count(r.1, '\n') == |lines| - 1
  {
    CopiedText(lines);
    (c.(copyIcon := CheckIcon, resets := c.resets + [now + CopiedFor]), Join(lines))
  }

  /** The copied text of lines without line breaks splits back into those lines, with one break between each two. */
  lemma CopiedText(lines: seq<string>)
    ensures |lines| > 0 && (forall i :: 0 <= i < |lines| ==> NoNewline(lines[i])) ==>
      Split(Join(lines)) == lines && Count(Join(lines), '\n') == |lines| - 1
  {
    if |lines| > 0 && (forall i :: 0 <= i < |lines| ==> NoNewline(lines[i])) {
      SplitJoin(lines);
      JoinSeparators(lines);
    }
  }

  function DueBy(rs: seq<int>, now: int): (r: seq<int>)
    ensures forall x :: x in r <==> x in rs && x <= now
    decreases |rs|
  {
    if |rs| == 0 then [] else (if rs[0] <= now then [rs[0]] else []) + DueBy(rs[1..], now)
  }

  function LaterThan(rs: seq<int>, now: int): (r: seq<int>)
    ensures forall x :: x in r <==> x in rs && x > now
    decreases |rs|
  {
    if |rs| == 0 then [] else (if rs[0] > now then [rs[0]] else []) + LaterThan(rs[1..], now)
  }

  /** Time advances to `now`: every reset due by then fires and puts the copy icon back. */
  function Advance(c: Controls, now: int): (r: Controls)
    ensures (exists x :: x in c.resets && x <= now) ==> r.copyIcon == CopyIcon
    ensures (forall x :: x in c.resets ==> x > now) ==> r.copyIcon == c.copyIcon
    ensures forall x :: x in r.resets <==> x in c.resets && x > now
    ensures r.folded == c.folded && r.foldIcon == c.foldIcon
  {
    var fired := DueBy(c.resets, now);
    if |fired| > 0 then
      assert fired[0] in fired;
      c.(copyIcon := CopyIcon, resets := LaterThan(c.resets, now))
    else
      assert forall x :: x in c.resets && x <= now ==> x in fired;
      c.(resets := LaterThan(c.resets, now))
  }

  /** A copy shows the check mark for 1000 ms and then the copy icon again, when no earlier reset is pending. */
  lemma CopyIconCycle(c: Controls, lines: seq<string>, now: int, later: int)
    requires c.resets == []
    requires later >= now
    ensures var clicked := CopyClick(c, lines, now).0;
      && (later < now + CopiedFor ==> Advance(clicked, later).copyIcon == CheckIcon)
      && (later >= now + CopiedFor ==> Advance(clicked, later).copyIcon == CopyIcon)
  {
  }
}

=== FILE: image_viewer.dfy ===
/**
 * The closure state of `imageViewer` in js/tools/imageViewer.js and its event
 * handlers, as one step function per event. The element geometry that the
 * zoom handler reads is an input of the wheel event.
 */
module ImageViewer {
  import opened Wrappers

  const MinScale: real := 0.8
  const MaxScale: real := 4.0
  /** Scale change per unit of wheel `deltaY`. */
  const WheelFactor: real := -0.001
  /** Minimum time between two accepted drag moves (ms). */
  const Throttle: int := 100

  const ArrowUp: string := "ArrowUp"
  const ArrowLeft: string := "ArrowLeft"
  const ArrowDown: string := "ArrowDown"
  const ArrowRight: string := "ArrowRight"
  const EscapeKey: string := "Escape"

  /** An image of the page; `lazySrc` is its `data-src` while it still carries the `lazyload` attribute. */
  datatype PageImage = PageImage(src: string, lazySrc: Option<string>)

  /**
   * The closure variables. `open` is `isBigImage`; `shown` is the viewer
   * image's `src`; `escapeListening` says whether `escapeKeyListener` is
   * registered on the document.
   */
  datatype Viewer = Viewer(
    open: bool,
    scale: real,
    mouseDown: bool,
    dragged: bool,
    index: int,
    lastX: real,
    lastY: real,
    tx: real,
    ty: real,
    lastTime: int,
    shown: string,
    escapeListening: bool)

  /** The viewer together with the page images it browses. */
  datatype Scene = Scene(viewer: Viewer, images: seq<PageImage>)

  /**
   * The events the handlers react to. `Wheel` carries the pointer's offset
   * from the image centre, which the source computes from the element's
   * bounding box; `MouseMove` carries the time the handler reads from the clock.
   */
  datatype Event =
    | ImageClick(k: nat)
    | KeyDown(key: string)
    | MaskClick
    | Wheel(deltaY: real, offsetX: real, offsetY: real)
    | MouseDown(x: real, y: real)
    | MouseMove(x: real, y: real, time: int)
    | MouseUp
    | MouseLeave

  /** The state right after `imageViewer()` runs, with the viewer image showing `shown`. */
  function Initial(shown: string): Viewer {
    Viewer(false, 1.0, false, false, 0, 0.0, 0.0, 0.0, 0.0, 0, shown, false)
  }

  /** `Math.max` on two numbers: returns one of its operands. */
  function Max(a: real, b: real): (r: real)
    ensures r >= a && r >= b && (r == a || r == b)
  {
    if a >= b then a else b
  }

  /** `Math.min` on two numbers: returns one of its operands. */
  function Min(a: real, b: real): (r: real)
    ensures r <= a && r <= b && (r == a || r == b)
  {
    if a <= b then a else b
  }

  /** `Math.min(Math.max(0.8, s), 4)`. */
  function Clamp(s: real): (r: real)
    ensures MinScale <= r <= MaxScale
    ensures MinScale <= s <= MaxScale ==> r == s
    ensures s < MinScale ==> r == MinScale
    ensures s > MaxScale ==> r == MaxScale
  {
    Min(Max(MinScale, s), MaxScale)
  }

  /** The clamp is idempotent: a clamped scale is a fixed point. */
  lemma ClampIdempotent(s: real)
    ensures Clamp(Clamp(s)) == Clamp(s)
  {
  }

  /** The remainder operator `%` of the source: the result takes the sign of the dividend. */
  function Rem(a: int, n: int): (r: int)
    requires n > 0
    ensures a >= 0 ==> 0 <= r < n
    ensures a < 0 ==> -n < r <= 0
    ensures -n < a < n ==> r == a
    ensures n <= a < 2 * n ==> r == a - n
  {
    ModSmall(a, n);
    ModSmall(-a, n);
    if a >= 0 then a % n else -((-a) % n)
  }

  /** On [0, 2n) the remainder subtracts `n` at most once. */
  lemma ModSmall(x: int, n: int)
    requires n > 0
    ensures 0 <= x < 2 * n ==> x % n == (if x < n then x else x - n)
  {
    if 0 <= x < 2 * n {
      var q := x / n;
      assert x == n * q + x % n;
    }
  }

  /** The index after an arrow key: back for Up/Left, forward for Down/Right, wrapping around. */
  function ArrowIndex(i: int, n: nat, key: string): (r: int)
    requires n > 0 && 0 <= i < n
    ensures 0 <= r < n
    ensures (key == ArrowUp || key == ArrowLeft) ==> r == (if i == 0 then n - 1 else i - 1)
    ensures (key == ArrowDown || key == ArrowRight) && !(key == ArrowUp || key == ArrowLeft) ==>
      r == (if i == n - 1 then 0 else i + 1)
    ensures !(key in {ArrowUp, ArrowLeft, ArrowDown, ArrowRight}) ==> r == i
  {
    ModSmall(i - 1 + n, n);
    ModSmall(i + 1, n);
    if key == ArrowUp || key == ArrowLeft then Rem(i - 1 + n, n)
    else if key == ArrowDown || key == ArrowRight then Rem(i + 1, n)
    else i
  }

  /** Left and then Right come back to the same image, and so do Right and then Left. */
  lemma ArrowsInverse(i: int, n: nat)
    requires n > 0 && 0 <= i < n
    ensures ArrowIndex(ArrowIndex(i, n, ArrowLeft), n, ArrowRight) == i
    ensures ArrowIndex(ArrowIndex(i, n, ArrowRight), n, ArrowLeft) == i
  {
  }

  /** The index after `m` presses of Right. */
  function Forward(i: int, n: nat, m: nat): (r: int)
    requires n > 0 && 0 <= i < n
    ensures 0 <= r < n
    decreases m
  {
    if m == 0 then i else Forward(ArrowIndex(i, n, ArrowRight), n, m - 1)
  }

  /** `n` presses of Right, one per image, come back to the starting image. */
  lemma FullCycle(i: int, n: nat)
    requires n > 0 && 0 <= i < n
    ensures Forward(i, n, n) == i
  {
    ForwardSplit(i, n, n - 1 - i, i + 1);
    ForwardNoWrap(i, n, n - 1 - i);
    assert Forward(n - 1, n, i + 1) == Forward(0, n, i);
    ForwardNoWrap(0, n, i);
  }

  lemma {:induction false} ForwardNoWrap(i: int, n: nat, m: nat)
    requires n > 0 && 0 <= i && i + m < n
    ensures Forward(i, n, m) == i + m
    decreases m
  {
    if m > 0 {
      ForwardNoWrap(i + 1, n, m - 1);
    }
  }

  lemma {:induction false} ForwardSplit(i: int, n: nat, a: nat, b: nat)
    requires n > 0 && 0 <= i < n
    ensures Forward(i, n, a + b) == Forward(Forward(i, n, a), n, b)
    decreases a
  {
    if a > 0 {
      ForwardSplit(ArrowIndex(i, n, ArrowRight), n, a - 1, b);
    }
  }

  /** Reset performed by both ways of closing: closed, scale 1, no translation. */
  function Closed(v: Viewer): Viewer {
    v.(open := false, scale := 1.0, tx := 0.0, ty := 0.0)
  }

  /** The click handler of page image `k`. */
  function ClickImage(sc: Scene, k: nat): (r: Scene)
    ensures k < |sc.images| ==>
      && r.viewer.open && r.viewer.index == k && r.viewer.shown == sc.images[k].src
      && r.viewer.escapeListening
      && r.viewer.scale == sc.viewer.scale && r.viewer.tx == sc.viewer.tx && r.viewer.ty == sc.viewer.ty
      && r.images == sc.images
    ensures k < |sc.images| ==>
      r.viewer.(open := sc.viewer.open, index := sc.viewer.index, shown := sc.viewer.shown,
                escapeListening := sc.viewer.escapeListening) == sc.viewer
    ensures k >= |sc.images| ==> r == sc
  {
    if k < |sc.images| then
      sc.(viewer := sc.viewer.(index := k, open := true, shown := sc.images[k].src, escapeListening := true))
    else sc
  }

  /**
   * `handleArrowKeys`, registered only when the page has images. An image
   * still marked `lazyload` is switched to its `data-src` when reached.
   */
  function ArrowKey(sc: Scene, key: string): (r: Scene)
    requires 0 <= sc.viewer.index && (|sc.images| > 0 ==> sc.viewer.index < |sc.images|)
    ensures |r.images| == |sc.images|
    ensures !sc.viewer.open || |sc.images| == 0 ==> r == sc
    ensures !(key in {ArrowUp, ArrowLeft, ArrowDown, ArrowRight}) ==> r == sc
    ensures sc.viewer.open && |sc.images| > 0 && key in {ArrowUp, ArrowLeft, ArrowDown, ArrowRight} ==>
      var i := ArrowIndex(sc.viewer.index, |sc.images|, key);
      && r.viewer == sc.viewer.(index := i, shown := r.images[i].src)
      && r.images[i].lazySrc.None?
      && r.images[i].src == (if sc.images[i].lazySrc.Some? then sc.images[i].lazySrc.value else sc.images[i].src)
      && (forall j :: 0 <= j < |sc.images| && j != i ==> r.images[j] == sc.images[j])
  {
    var v := sc.viewer;
    var n := |sc.images|;
    if !v.open || n == 0 || !(key in {ArrowUp, ArrowLeft, ArrowDown, ArrowRight}) then sc
    else
      var i := ArrowIndex(v.index, n, key);
      var img := sc.images[i];
      var src := match img.lazySrc
                 case Some(d) => d
                 case None => img.src;
      Scene(v.(index := i, shown := src), sc.images[i := PageImage(src, None)])
  }

  /** `escapeKeyListener`: closes and resets only when registered, the key is Escape and the viewer is open. */
  function Escape(v: Viewer, key: string): (r: Viewer)
    ensures v.escapeListening && key == EscapeKey && v.open ==>
      && !r.open && r.scale == 1.0 && r.tx == 0.0 && r.ty == 0.0 && !r.escapeListening
      && r.(open := v.open, scale := v.scale, tx := v.tx, ty := v.ty, escapeListening := v.escapeListening) == v
    ensures !(v.escapeListening && key == EscapeKey && v.open) ==> r == v
    ensures r.index == v.index && r.dragged == v.dragged && r.shown == v.shown
  {
    if v.escapeListening && key == EscapeKey && v.open then Closed(v).(escapeListening := false) else v
  }

  /** The mask's click handler: closes and resets unless the click ends a drag; clears `dragged` either way. */
  function MaskClickStep(v: Viewer): (r: Viewer)
    ensures !r.dragged
    ensures !v.dragged ==> !r.open && r.scale == 1.0 && r.tx == 0.0 && r.ty == 0.0
    ensures v.dragged ==> r == v.(dragged := false)
    ensures r.index == v.index && r.escapeListening == v.escapeListening
    ensures r.(open := v.open, scale := v.scale, tx := v.tx, ty := v.ty, dragged := v.dragged) == v
  {
    (if !v.dragged then Closed(v) else v).(dragged := false)
  }

  /**
   * `zoomHandle`: the scale moves by `deltaY * -0.001` and is clamped to
   * [0.8, 4]; zooming in shifts the translation towards the pointer, anything
   * else recentres the image.
   */
  function Zoom(v: Viewer, deltaY: real, offsetX: real, offsetY: real): (r: Viewer)
    ensures MinScale <= r.scale <= MaxScale
    ensures r.scale == Clamp(v.scale + deltaY * WheelFactor)
    ensures r.scale <= v.scale ==> r.tx == 0.0 && r.ty == 0.0
    ensures r.scale > v.scale ==>
      r.tx == v.tx - offsetX * (r.scale - v.scale) && r.ty == v.ty - offsetY * (r.scale - v.scale)
    ensures r.open == v.open && r.index == v.index && r.dragged == v.dragged
    ensures r.(scale := v.scale, tx := v.tx, ty := v.ty) == v
  {
    var s := Clamp(v.scale + deltaY * WheelFactor);
    if v.scale < s then
      v.(scale := s, tx := v.tx - offsetX * (s - v.scale), ty := v.ty - offsetY * (s - v.scale))
    else
      v.(scale := s, tx := 0.0, ty := 0.0)
  }

  /** `dragStartHandle`. */
  function DragStart(v: Viewer, x: real, y: real): (r: Viewer)
    ensures r.mouseDown && r.lastX == x && r.lastY == y
    ensures r.(mouseDown := v.mouseDown, lastX := v.lastX, lastY := v.lastY) == v
  {
    v.(mouseDown := true, lastX := x, lastY := y)
  }

  /**
   * `dragHandle`: while the button is down, and at least 100 ms after the last
   * accepted move, the image follows the pointer and `dragged` is set.
   */
  function Drag(v: Viewer, x: real, y: real, now: int): (r: Viewer)
    ensures v.mouseDown && now - v.lastTime >= Throttle ==>
      && r.tx - v.tx == x - v.lastX && r.ty - v.ty == y - v.lastY
      && r.dragged && r.lastTime == now && r.lastX == x && r.lastY == y
    ensures !(v.mouseDown && now - v.lastTime >= Throttle) ==> r == v
    ensures r.open == v.open && r.scale == v.scale && r.index == v.index && r.mouseDown == v.mouseDown
    ensures r.(tx := v.tx, ty := v.ty, lastX := v.lastX, lastY := v.lastY, lastTime := v.lastTime,
               dragged := v.dragged) == v
  {
    if v.mouseDown && now - v.lastTime >= Throttle then
      v.(lastTime := now, tx := v.tx + (x - v.lastX), ty := v.ty + (y - v.lastY), lastX := x, lastY := y, dragged := true)
    else v
  }

  /** `dragEndHandle`, for both `mouseup` and `mouseleave`. */
  function DragEnd(v: Viewer): (r: Viewer)
    ensures !r.mouseDown && r.(mouseDown := v.mouseDown) == v
  {
    v.(mouseDown := false)
  }

  /**
   * A press, a move the throttle accepts, and a release: the image has
   * followed the pointer, and the click that ends the drag does not close the
   * viewer; the next mask click does.
   */
  lemma DragThenClickKeepsOpen(v: Viewer, x0: real, y0: real, x: real, y: real, now: int)
    requires v.open && now - v.lastTime >= Throttle
    ensures var dropped := DragEnd(Drag(DragStart(v, x0, y0), x, y, now));
      var clicked := MaskClickStep(dropped);
      && clicked.open && !clicked.dragged
      && clicked.tx == v.tx + (x - x0) && clicked.ty == v.ty + (y - y0)
      && clicked.scale == v.scale
      && !MaskClickStep(clicked).open
  {
  }

  /** A press and release without an accepted move is a plain click: the mask click closes the viewer. */
  lemma ClickWithoutDragCloses(v: Viewer, x0: real, y0: real)
    requires !v.dragged
    ensures !MaskClickStep(DragEnd(DragStart(v, x0, y0))).open
  {
  }

  /** Invariant of the scene: the index points at an image, only an image click opens, and the scale stays clamped. */
  ghost predicate Inv(sc: Scene) {
    && 0 <= sc.viewer.index
    && (|sc.images| > 0 ==> sc.viewer.index < |sc.images|)
    && (sc.viewer.open ==> |sc.images| > 0 && sc.viewer.escapeListening)
    && MinScale <= sc.viewer.scale <= MaxScale
  }

  lemma InitialInv(shown: string, images: seq<PageImage>)
    ensures Inv(Scene(Initial(shown), images))
  {
  }

  /** One event, dispatched to every handler listening for it, in registration order. */
  function Step(sc: Scene, e: Event): (r: Scene)
    requires Inv(sc)
    ensures Inv(r)
    ensures |r.images| == |sc.images|
    ensures !sc.viewer.open && !e.ImageClick? ==> !r.viewer.open
  {
    match e
    case ImageClick(k) => ClickImage(sc, k)
    case KeyDown(key) =>
      var afterArrows := ArrowKey(sc, key);
      afterArrows.(viewer := Escape(afterArrows.viewer, key))
    case MaskClick => sc.(viewer := MaskClickStep(sc.viewer))
    case Wheel(d, ox, oy) => sc.(viewer := Zoom(sc.viewer, d, ox, oy))
    case MouseDown(x, y) => sc.(viewer := DragStart(sc.viewer, x, y))
    case MouseMove(x, y, t) => sc.(viewer := Drag(sc.viewer, x, y, t))
    case MouseUp => sc.(viewer := DragEnd(sc.viewer))
    case MouseLeave => sc.(viewer := DragEnd(sc.viewer))
  }

  /** A run of events. */
  function Run(sc: Scene, es: seq<Event>): (r: Scene)
    requires Inv(sc)
    ensures Inv(r)
    decreases |es|
  {
    if es == [] then sc else Run(Step(sc, es[0]), es[1..])
  }

  /** After any run of events from the initial state, the index lies in [0, n) and the scale in [0.8, 4]. */
  lemma RunKeepsBounds(shown: string, images: seq<PageImage>, es: seq<Event>)
    requires |images| > 0
    ensures var r := Run(Scene(Initial(shown), images), es);
      0 <= r.viewer.index < |images| && MinScale <= r.viewer.scale <= MaxScale
  {
    RunKeepsLength(Scene(Initial(shown), images), es);
  }

  lemma {:induction false} RunKeepsLength(sc: Scene, es: seq<Event>)
    requires Inv(sc)
    ensures |Run(sc, es).images| == |sc.images|
    decreases |es|
  {
    if es != [] {
      RunKeepsLength(Step(sc, es[0]), es[1..]);
    }
  }
}

=== FILE: json.dfy ===
/**
 * Values produced by `JSON.parse`, together with the two script-level
 * operations the scripts apply to them: a truthiness test and a property read.
 * A script value that may be `undefined` is an `Option<Json>`, `None` being
 * `undefined`.
 */
module Json {
  import opened Wrappers

  /** A parsed JSON value. Arrays are not modelled: no script here stores one. */
  datatype Json =
    | JNull
    | JBool(b: bool)
    | JNum(x: real)
    | JStr(s: string)
    | JObj(fields: map<string, Json>)

  /** The errors a script statement can raise in this model. */
  datatype Error =
    | SyntaxError   // `JSON.parse` of text that is not JSON
    | TypeError     // a property read on `null`, or a call on a missing element

  /** Truthiness of a script value; `undefined`, `null`, `false`, `0` and `""` are falsy. */
  predicate Truthy(v: Option<Json>) {
    match v
    case None => false
    case Some(JNull) => false
    case Some(JBool(b)) => b
    case Some(JNum(x)) => x != 0.0
    case Some(JStr(s)) => s != ""
    case Some(JObj(_)) => true
  }

  /**
   * The property read `v[key]` on a parsed value: an object yields its own
   * field or `undefined`, a primitive yields `undefined`, and `null` raises.
   */
  function Prop(v: Json, key: string): (r: Result<Option<Json>, Error>)
    ensures r.Failure? <==> v.JNull?
    ensures r.Success? && r.value.Some? ==> v.JObj? && key in v.fields && r.value.value == v.fields[key]
  {
    match v
    case JNull => Failure(TypeError)
    case JObj(fields) => Success(if key in fields then Some(fields[key]) else None)
    case _ => Success(None)
  }
}

=== FILE: player_lifecycle.dfy ===
/**
 * The page-wide player lifecycle of js/plugins/aplayer.js: `initPlayer`
 * (instance replacement, the retry while the container is missing, the
 * listeners it attaches) and the timers it schedules. Timers are values in a
 * list; which one fires next, and when, is chosen by the caller.
 */
module PlayerLifecycle {
  import opened Wrappers
  import opened Json
  import opened Storage
  import opened PlayerState

  /** Delay before `initPlayer` looks for a missing container again (ms). */
  const RetryDelay: int := 50
  /** Delay before a "fixed" player's lyrics button is clicked (ms). */
  const LrcClickDelay: int := 50
  /** Delay between construction and the restore of the saved state (ms). */
  const RestoreDelay: int := 200
  /** Period of the recurring save (ms). */
  const SaveEvery: int := 1000

  const MiniType: string := "mini"
  const FixedType: string := "fixed"

  /** What a timer does when it fires; `id` names the instance its closure captured. */
  datatype Task =
    | RetryInit
    | ClickLrc(id: nat)
    | RestoreLater(id: nat)
    | PeriodicSave(id: nat)

  datatype Timer = Timer(due: int, task: Task)

  /**
   * One constructed player. `hasOn`: the instance offers `on`, so the
   * play/pause/ended handlers were attached. `audioHooked`: it had an audio
   * element, so the `timeupdate` listener was attached. `intervalArmed` is the
   * closure variable `saveInterval` being set.
   */
  datatype Instance = Instance(
    player: Player,
    hasOn: bool,
    audioHooked: bool,
    intervalArmed: bool,
    destroyed: bool)

  /** What `new APlayer(...)` yields; supplied by the caller, since the library is not modelled. */
  datatype Construction = Construction(player: Player, hasOn: bool)

  /**
   * The page: configured player type, storage, every instance ever
   * constructed (indexed by creation order), the one `window.aplayerInstance`
   * refers to, whether the `#aplayer` container is in the document, and the
   * pending timers.
   */
  datatype Page = Page(
    playerType: string,
    store: Store,
    instances: seq<Instance>,
    current: Option<nat>,
    containerPresent: bool,
    timers: seq<Timer>)

  /** A page before any initialisation. */
  function Fresh(playerType: string, store: Store, containerPresent: bool): Page {
    Page(playerType, store, [], None, containerPresent, [])
  }

  predicate IsSaveOf(t: Timer, id: nat) {
    t.task.PeriodicSave? && t.task.id == id
  }

  /** The number of recurring-save timers belonging to instance `id`. */
  function CountSaves(ts: seq<Timer>, id: nat): nat {
    if ts == [] then 0
    else (if IsSaveOf(ts[0], id) then 1 else 0) + CountSaves(ts[1..], id)
  }

  predicate Refers(t: Task, n: nat) {
    match t
    case RetryInit => true
    case ClickLrc(id) => id < n
    case RestoreLater(id) => id < n
    case PeriodicSave(id) => id < n
  }

  /**
   * The page invariant: the current instance and every timer's instance exist,
   * and each instance has exactly as many recurring-save timers as its
   * `saveInterval` says: one once armed, none before.
   */
  ghost predicate Valid(pg: Page) {
    && (pg.current.Some? ==> pg.current.value < |pg.instances|)
    && (forall k :: 0 <= k < |pg.timers| ==> Refers(pg.timers[k].task, |pg.instances|))
    && (forall id :: 0 <= id < |pg.instances| ==>
          CountSaves(pg.timers, id) == (if pg.instances[id].intervalArmed then 1 else 0))
  }

  /** At most one instance is live, and it is the one the page refers to. */
  ghost predicate OneLive(pg: Page) {
    forall id :: 0 <= id < |pg.instances| && !pg.instances[id].destroyed ==> pg.current == Some(id)
  }

  lemma FreshValid(playerType: string, store: Store, containerPresent: bool)
    ensures Valid(Fresh(playerType, store, containerPresent))
    ensures OneLive(Fresh(playerType, store, containerPresent))
  {
  }

  lemma {:induction false} CountAppend(a: seq<Timer>, b: seq<Timer>, id: nat)
    ensures CountSaves(a + b, id) == CountSaves(a, id) + CountSaves(b, id)
  {
    if a == [] {
      assert a + b == b;
    } else {
      assert (a + b)[1..] == a[1..] + b;
      CountAppend(a[1..], b, id);
    }
  }

  lemma CountSingle(t: Timer, id: nat)
    ensures CountSaves([t], id) == (if IsSaveOf(t, id) then 1 else 0)
  {
  }

  /** Removing timer `k` removes its contribution to the count and nothing else. */
  lemma CountRemove(ts: seq<Timer>, k: nat, id: nat)
    requires k < |ts|
    ensures CountSaves(ts[..k] + ts[k+1..], id) == CountSaves(ts, id) - (if IsSaveOf(ts[k], id) then 1 else 0)
  {
    assert ts == ts[..k] + [ts[k]] + ts[k+1..];
    CountAppend(ts[..k] + [ts[k]], ts[k+1..], id);
    CountAppend(ts[..k], [ts[k]], id);
    CountAppend(ts[..k], ts[k+1..], id);
    CountSingle(ts[k], id);
  }

  /** Replacing timer `k` by one with the same task keeps every count. */
  lemma CountReplace(ts: seq<Timer>, k: nat, t: Timer, id: nat)
    requires k < |ts| && t.task == ts[k].task
    ensures CountSaves(ts[k := t], id) == CountSaves(ts, id)
  {
    var us := ts[k := t];
    assert ts == ts[..k] + [ts[k]] + ts[k+1..];
    assert us == ts[..k] + [t] + ts[k+1..];
    CountAppend(ts[..k] + [ts[k]], ts[k+1..], id);
    CountAppend(ts[..k], [ts[k]], id);
    CountAppend(ts[..k] + [t], ts[k+1..], id);
    CountAppend(ts[..k], [t], id);
    CountSingle(ts[k], id);
    CountSingle(t, id);
  }

  /** Timers that never name instance `id` contribute no save for it. */
  lemma {:induction false} CountNone(ts: seq<Timer>, id: nat)
    requires forall k :: 0 <= k < |ts| ==> !IsSaveOf(ts[k], id)
    ensures CountSaves(ts, id) == 0
  {
    if ts != [] {
      CountNone(ts[1..], id);
    }
  }

  /**
   * The `try { destroy(); aplayerInstance = null } catch {}` block. A destroy
   * that raises skips the reset, so the old instance stays referenced and is
   * taken to stay live.
   */
  function Teardown(pg: Page, destroyThrows: bool): (r: Page)
    requires Valid(pg)
    ensures Valid(r)
    ensures OneLive(pg) && !destroyThrows ==> OneLive(r)
    ensures !destroyThrows ==> r.current.None?
    ensures destroyThrows || pg.current.None? ==> r == pg
    ensures r.store == pg.store && r.timers == pg.timers && |r.instances| == |pg.instances|
    ensures r.playerType == pg.playerType && r.containerPresent == pg.containerPresent
    ensures forall id :: 0 <= id < |pg.instances| ==>
      r.instances[id] == pg.instances[id].(destroyed := pg.instances[id].destroyed || (Some(id) == pg.current && !destroyThrows))
  {
    match pg.current
    case None => pg
    case Some(id) =>
      if destroyThrows then pg
      else pg.(instances := pg.instances[id := pg.instances[id].(destroyed := true)], current := None)
  }

  /**
   * `initPlayer`. Without the container it only schedules itself again.
   * Otherwise it tears down the current instance, constructs a new one only
   * for the "mini" and "fixed" types, makes it current, attaches its
   * listeners, and schedules the lyrics click ("fixed" only) and the restore.
   */
  function InitPlayer(pg: Page, now: int, made: Construction, destroyThrows: bool): (r: Page)
    requires Valid(pg)
    ensures Valid(r)
    ensures r.store == pg.store && r.playerType == pg.playerType && r.containerPresent == pg.containerPresent
    ensures !pg.containerPresent ==>
      && r.instances == pg.instances && r.current == pg.current
      && r.timers == pg.timers + [Timer(now + RetryDelay, RetryInit)]
    ensures pg.containerPresent ==>
      && |pg.instances| <= |r.instances| <= |pg.instances| + 1
      && pg.timers <= r.timers
      && (forall id :: 0 <= id < |pg.instances| ==>
            r.instances[id] == pg.instances[id].(destroyed := pg.instances[id].destroyed || (Some(id) == pg.current && !destroyThrows)))
      && (|r.instances| == |pg.instances| + 1 <==> pg.playerType in {MiniType, FixedType})
      && (pg.current.Some? && !destroyThrows ==> r.instances[pg.current.value].destroyed)
      && (pg.playerType !in {MiniType, FixedType} ==>
            r.current == (if destroyThrows then pg.current else None) && r.timers == pg.timers)
    ensures pg.containerPresent && pg.playerType in {MiniType, FixedType} ==>
      var id := |pg.instances|;
      && r.current == Some(id)
      && r.instances[id] == Instance(made.player, made.hasOn, made.player.audio.Some?, false, false)
      && Timer(now + RestoreDelay, RestoreLater(id)) in r.timers
      && (Timer(now + LrcClickDelay, ClickLrc(id)) in r.timers <==> pg.playerType == FixedType)
      && r.timers == pg.timers
           + (if pg.playerType == FixedType then [Timer(now + LrcClickDelay, ClickLrc(id))] else [])
           + [Timer(now + RestoreDelay, RestoreLater(id))]
    ensures OneLive(pg) && !destroyThrows ==> OneLive(r)
  {
    if !pg.containerPresent then
      var r := pg.(timers := pg.timers + [Timer(now + RetryDelay, RetryInit)]);
      CountAppendAll(pg.timers, [Timer(now + RetryDelay, RetryInit)], |pg.instances|);
      r
    else
      var torn := Teardown(pg, destroyThrows);
      if pg.playerType == MiniType || pg.playerType == FixedType then
        var id := |torn.instances|;
        var inst := Instance(made.player, made.hasOn, made.player.audio.Some?, false, false);
        var lrc := if pg.playerType == MiniType then [] else [Timer(now + LrcClickDelay, ClickLrc(id))];
        var added := lrc + [Timer(now + RestoreDelay, RestoreLater(id))];
        CountAppendAll(torn.timers, added, id + 1);
        CountNone(torn.timers, id);
        torn.(instances := torn.instances + [inst], current := Some(id), timers := torn.timers + added)
      else torn
  }

  /** Appending timers that start no recurring save keeps every count, and references stay in range. */
  lemma CountAppendAll(ts: seq<Timer>, added: seq<Timer>, n: nat)
    requires forall k :: 0 <= k < |added| ==> !added[k].task.PeriodicSave? && Refers(added[k].task, n)
    ensures forall id :: CountSaves(ts + added, id) == CountSaves(ts, id)
  {
    forall id: nat
      ensures CountSaves(ts + added, id) == CountSaves(ts, id)
    {
      CountAppend(ts, added, id);
      CountNone(added, id);
    }
  }

  /**
   * A `timeupdate` on instance `id`'s audio element: the first one arms the
   * recurring save; later ones find `saveInterval` set and do nothing.
   */
  function TimeUpdate(pg: Page, id: nat, now: int): (r: Page)
    requires Valid(pg) && id < |pg.instances|
    ensures Valid(r)
    ensures r.store == pg.store && r.current == pg.current
    ensures r.playerType == pg.playerType && r.containerPresent == pg.containerPresent
    ensures CountSaves(r.timers, id) <= 1
    ensures pg.instances[id].intervalArmed || !pg.instances[id].audioHooked ==> r == pg
    ensures pg.instances[id].audioHooked && !pg.instances[id].intervalArmed ==>
      && r.instances == pg.instances[id := pg.instances[id].(intervalArmed := true)]
      && r.timers == pg.timers + [Timer(now + SaveEvery, PeriodicSave(id))]
      && r.store == pg.store && r.current == pg.current
    ensures CountSaves(r.timers, id) == 1 <==> pg.instances[id].intervalArmed || pg.instances[id].audioHooked
    ensures OneLive(pg) ==> OneLive(r)
  {
    var inst := pg.instances[id];
    if inst.audioHooked && !inst.intervalArmed then
      var t := Timer(now + SaveEvery, PeriodicSave(id));
      var r := pg.(instances := pg.instances[id := inst.(intervalArmed := true)], timers := pg.timers + [t]);
      forall other | 0 <= other < |r.instances|
        ensures CountSaves(r.timers, other) == (if r.instances[other].intervalArmed then 1 else 0)
      {
        CountAppend(pg.timers, [t], other);
        CountSingle(t, other);
      }
      r
    else pg
  }

  /** Any number of `timeupdate` events, in order. */
  function TimeUpdates(pg: Page, id: nat, times: seq<int>): (r: Page)
    requires Valid(pg) && id < |pg.instances|
    ensures Valid(r) && |r.instances| == |pg.instances|
    decreases |times|
  {
    if times == [] then pg
    else TimeUpdates(TimeUpdate(pg, id, times[0]), id, times[1..])
  }

  /** However many `timeupdate` events arrive, an instance gets at most one recurring save. */
  lemma {:induction false} AtMostOneInterval(pg: Page, id: nat, times: seq<int>)
    requires Valid(pg) && id < |pg.instances|
    ensures CountSaves(TimeUpdates(pg, id, times).timers, id) <= 1
  {
  }

  /** The `play` and `pause` handlers: each saves the instance's state. */
  function PlayOrPause(pg: Page, id: nat, writeFails: bool): (r: Page)
    requires Valid(pg) && id < |pg.instances|
    ensures Valid(r)
    ensures r.instances == pg.instances && r.current == pg.current && r.timers == pg.timers
    ensures r.playerType == pg.playerType && r.containerPresent == pg.containerPresent
    ensures pg.instances[id].hasOn && !writeFails && pg.instances[id].player.audio.Some? ==>
      Load(r.store) == Some(Snapshot(
        pg.instances[id].player.audio.value.currentTime,
        !pg.instances[id].player.audio.value.paused,
        pg.instances[id].player.listIndex.GetOr(0)))
    ensures pg.instances[id].hasOn ==> r.store == Save(pg.store, pg.instances[id].player, writeFails)
    ensures SameExcept(pg.store, r.store, StateKey)
    ensures writeFails || pg.instances[id].player.audio.None? ==> r == pg
    ensures !pg.instances[id].hasOn ==> r == pg
  {
    if pg.instances[id].hasOn then pg.(store := Save(pg.store, pg.instances[id].player, writeFails)) else pg
  }

  /** The `ended` handler: removes the saved state, so a later restore does nothing. */
  function EndedEvent(pg: Page, id: nat): (r: Page)
    requires Valid(pg) && id < |pg.instances|
    ensures Valid(r)
    ensures r.instances == pg.instances && r.current == pg.current && r.timers == pg.timers
    ensures r.playerType == pg.playerType && r.containerPresent == pg.containerPresent
    ensures pg.instances[id].hasOn ==> StateKey !in r.store
    ensures SameExcept(pg.store, r.store, StateKey)
    ensures pg.instances[id].hasOn ==> forall p :: Restore(r.store, p) == p
    ensures !pg.instances[id].hasOn ==> r == pg
  {
    if pg.instances[id].hasOn then pg.(store := Ended(pg.store)) else pg
  }

  /** A readiness signal on instance `id`'s audio element. */
  function MediaSignal(pg: Page, id: nat, e: MediaEvent): (r: Page)
    requires Valid(pg) && id < |pg.instances|
    ensures Valid(r)
    ensures r.store == pg.store && r.current == pg.current && r.timers == pg.timers
    ensures r.playerType == pg.playerType && r.containerPresent == pg.containerPresent
    ensures |r.instances| == |pg.instances|
    ensures pg.instances[id].player.audio.Some? ==>
      r.instances[id].player.audio.Some? && forall h :: h in r.instances[id].player.audio.value.handlers ==> h.on != e
    ensures pg.instances[id].player.audio.Some? ==>
      var inst := pg.instances[id];
      r.instances == pg.instances[id := inst.(player := inst.player.(audio := Some(FireMedia(inst.player.audio.value, e))))]
    ensures pg.instances[id].player.audio.None? ==> r == pg
  {
    var inst := pg.instances[id];
    match inst.player.audio
    case None => pg
    case Some(a) =>
      pg.(instances := pg.instances[id := inst.(player := inst.player.(audio := Some(FireMedia(a, e))))])
  }

  /** The timers without timer `k`. */
  function RemoveAt(ts: seq<Timer>, k: nat): (r: seq<Timer>)
    requires k < |ts|
    ensures |r| == |ts| - 1
    ensures forall j :: 0 <= j < k ==> r[j] == ts[j]
    ensures forall j :: k <= j < |r| ==> r[j] == ts[j + 1]
  {
    ts[..k] + ts[k+1..]
  }

  /**
   * Timer `k` fires at time `now`. The retry runs `initPlayer` again; the
   * delayed restore and the recurring save act on the instance their closure
   * captured, whether or not it is still current; the recurring save stays
   * scheduled, one period later.
   */
  function RunTimer(pg: Page, k: nat, now: int, made: Construction, destroyThrows: bool, writeFails: bool): (r: Page)
    requires Valid(pg) && k < |pg.timers|
    ensures Valid(r)
    ensures OneLive(pg) && !destroyThrows ==> OneLive(r)
    ensures !pg.timers[k].task.RetryInit? ==>
      r.current == pg.current && r.playerType == pg.playerType && r.containerPresent == pg.containerPresent
    ensures pg.timers[k].task.PeriodicSave? ==>
      var id := pg.timers[k].task.id;
      && r.store == Save(pg.store, pg.instances[id].player, writeFails)
      && r.instances == pg.instances
      && r.timers == pg.timers[k := Timer(pg.timers[k].due + SaveEvery, PeriodicSave(id))]
    ensures pg.timers[k].task.RestoreLater? ==>
      var id := pg.timers[k].task.id;
      && r.store == pg.store
      && r.instances == pg.instances[id := pg.instances[id].(player := Restore(pg.store, pg.instances[id].player))]
      && r.timers == RemoveAt(pg.timers, k)
    ensures pg.timers[k].task.ClickLrc? ==>
      r == pg.(timers := RemoveAt(pg.timers, k))
    ensures pg.timers[k].task.RetryInit? ==>
      && Valid(pg.(timers := RemoveAt(pg.timers, k)))
      && r == InitPlayer(pg.(timers := RemoveAt(pg.timers, k)), now, made, destroyThrows)
  {
    var t := pg.timers[k];
    var rest := RemoveAt(pg.timers, k);
    forall id: nat | !IsSaveOf(t, id)
      ensures CountSaves(rest, id) == CountSaves(pg.timers, id)
    {
      CountRemove(pg.timers, k, id);
    }
    match t.task
    case RetryInit =>
      InitPlayer(pg.(timers := rest), now, made, destroyThrows)
    case ClickLrc(_) =>
      pg.(timers := rest)
    case RestoreLater(id) =>
      var inst := pg.instances[id];
      pg.(timers := rest, instances := pg.instances[id := inst.(player := Restore(pg.store, inst.player))])
    case PeriodicSave(id) =>
      var next := Timer(t.due + SaveEvery, PeriodicSave(id));
      forall other: nat
        ensures CountSaves(pg.timers[k := next], other) == CountSaves(pg.timers, other)
      {
        CountReplace(pg.timers, k, next, other);
      }
      pg.(timers := pg.timers[k := next], store := Save(pg.store, pg.instances[id].player, writeFails))
  }

  /**
   * The retry closes the gap while the container is missing: once `#aplayer`
   * is in the document, a pending retry of a "mini" or "fixed" page creates
   * the instance and makes it current.
   */
  lemma RetryCreatesInstance(pg: Page, k: nat, now: int, made: Construction, destroyThrows: bool, writeFails: bool)
    requires Valid(pg) && k < |pg.timers| && pg.timers[k].task.RetryInit?
    requires pg.containerPresent && pg.playerType in {MiniType, FixedType}
    ensures var r := RunTimer(pg, k, now, made, destroyThrows, writeFails);
      && |r.instances| == |pg.instances| + 1
      && r.current == Some(|pg.instances|)
      && r.instances[|pg.instances|].player == made.player
      && Timer(now + RestoreDelay, RestoreLater(|pg.instances|)) in r.timers
  {
  }

  /** While the container is missing, a firing retry schedules the next one and changes nothing else. */
  lemma RetryWhileMissing(pg: Page, k: nat, now: int, made: Construction, destroyThrows: bool, writeFails: bool)
    requires Valid(pg) && k < |pg.timers| && pg.timers[k].task.RetryInit?
    requires !pg.containerPresent
    ensures var r := RunTimer(pg, k, now, made, destroyThrows, writeFails);
      && r.instances == pg.instances && r.current == pg.current && r.store == pg.store
      && r.timers == RemoveAt(pg.timers, k) + [Timer(now + RetryDelay, RetryInit)]
  {
  }
}

=== FILE: player_state.dfy ===
/**
 * The audio player's persisted playback snapshot: `savePlayerState`,
 * `restorePlayerState` and the `ended` handler of js/plugins/aplayer.js.
 * The audio element is reduced to the fields those functions read and write,
 * plus the one-shot listeners a deferred restore leaves on it.
 */
module PlayerState {
  import opened Wrappers
  import opened Json
  import opened Storage

  /** The storage key of the snapshot. */
  const StateKey: string := "aplayer_state"

  /** HAVE_CURRENT_DATA: from this readiness on, a restore seeks at once. */
  const HaveCurrentData: nat := 2

  /** The record a save writes: a snapshot, not a log. */
  datatype Snapshot = Snapshot(currentTime: real, isPlaying: bool, currentIndex: int)

  /** The two readiness signals a deferred restore waits for. */
  datatype MediaEvent = LoadedMetadata | CanPlay

  /** A one-shot listener left by a deferred restore: seek to `target`, then resume if `resume`. */
  datatype Handler = Handler(on: MediaEvent, target: Json, resume: bool)

  /**
   * The audio element. `autoplayAllowed` is the browser's autoplay policy:
   * when it refuses, `play()` rejects and the element stays paused.
   * `playCalls` counts the calls to `play()`.
   */
  datatype Audio = Audio(
    currentTime: real,
    paused: bool,
    readyState: nat,
    autoplayAllowed: bool,
    handlers: seq<Handler>,
    playCalls: nat)

  /** A player instance as save and restore see it: its audio element, if any, and its playlist position, if it has a list. */
  datatype Player = Player(audio: Option<Audio>, listIndex: Option<int>)

  /** The JSON object a snapshot is stringified to. */
  function Encode(s: Snapshot): Json {
    JObj(map[
      "currentTime" := JNum(s.currentTime),
      "isPlaying" := JBool(s.isPlaying),
      "currentIndex" := JNum(s.currentIndex as real)])
  }

  /** Reads a full snapshot back from a parsed value; `None` unless all three fields are present and well typed. */
  function Decode(j: Json): Option<Snapshot> {
    if && j.JObj?
       && "currentTime" in j.fields && j.fields["currentTime"].JNum?
       && "isPlaying" in j.fields && j.fields["isPlaying"].JBool?
       && "currentIndex" in j.fields && j.fields["currentIndex"].JNum?
       && j.fields["currentIndex"].x == j.fields["currentIndex"].x.Floor as real
    then Some(Snapshot(j.fields["currentTime"].x, j.fields["isPlaying"].b, j.fields["currentIndex"].x.Floor))
    else None
  }

  /** The snapshot stored under the state key, if the key holds one. */
  function Load(store: Store): Option<Snapshot> {
    if StateKey in store && store[StateKey].Parsed? then Decode(store[StateKey].value) else None
  }

  /** Stringifying a snapshot and parsing it back gives the same snapshot. */
  lemma DecodeEncode(s: Snapshot)
    ensures Decode(Encode(s)) == Some(s)
  {
  }

  /**
   * `savePlayerState`: with an audio element, writes the snapshot
   * {currentTime, isPlaying = not paused, currentIndex = list index or 0}
   * over any earlier value. `writeFails` stands for `setItem` raising (quota,
   * storage disabled); the error is caught, so the store is left as it was.
   */
  function Save(store: Store, p: Player, writeFails: bool): (r: Store)
    ensures SameExcept(store, r, StateKey)
    ensures p.audio.None? || writeFails ==> r == store
    ensures p.audio.Some? && !writeFails ==>
      Load(r) == Some(Snapshot(p.audio.value.currentTime, !p.audio.value.paused, p.listIndex.GetOr(0)))
  {
    match p.audio
    case None => store
    case Some(a) =>
      if writeFails then store
      else
        var s := Snapshot(a.currentTime, !a.paused, p.listIndex.GetOr(0));
        DecodeEncode(s);
        store[StateKey := Parsed(Encode(s))]
  }

  /** The `ended` handler: removes the snapshot and nothing else. */
  function Ended(store: Store): (r: Store)
    ensures StateKey !in r
    ensures SameExcept(store, r, StateKey)
  {
    store - {StateKey}
  }

  /**
   * The number the element's `currentTime` setter converts a value to:
   * `null` is 0, booleans are 0 or 1. `None` means the setter raises;
   * strings and objects are taken to do so.
   */
  function SeekTarget(v: Json): (r: Option<real>)
    ensures r.Some? <==> v.JNull? || v.JBool? || v.JNum?
    ensures v.JNum? ==> r == Some(v.x)
    ensures v.JBool? ==> r == Some(if v.b then 1.0 else 0.0)
    ensures v.JNull? ==> r == Some(0.0)
  {
    match v
    case JNull => Some(0.0)
    case JBool(b) => Some(if b then 1.0 else 0.0)
    case JNum(x) => Some(x)
    case _ => None
  }

  /**
   * The body shared by the immediate and the deferred restore: seek, then call
   * `play()` only if the saved state was playing and the element is paused.
   * `None` means the seek raised, before `play()` could be reached.
   */
  function SeekAndResume(a: Audio, target: Json, resume: bool): (r: Option<Audio>)
    ensures r.Some? <==> SeekTarget(target).Some?
    ensures r.Some? ==>
      && r.value.currentTime == SeekTarget(target).value
      && r.value.playCalls == a.playCalls + (if resume && a.paused then 1 else 0)
      && r.value.paused == (a.paused && !(resume && a.autoplayAllowed))
      && r.value.handlers == a.handlers
      && r.value.readyState == a.readyState
      && r.value.autoplayAllowed == a.autoplayAllowed
  {
    match SeekTarget(target)
    case None => None
    case Some(t) =>
      var seeked := a.(currentTime := t);
      if resume && seeked.paused then
        Some(seeked.(playCalls := seeked.playCalls + 1, paused := !seeked.autoplayAllowed))
      else Some(seeked)
  }

  /** Truthiness of `state.isPlaying` on a parsed record that is not `null`. */
  function Resume(state: Json): bool {
    match Prop(state, "isPlaying")
    case Success(v) => Truthy(v)
    case Failure(_) => false
  }

  /**
   * `restorePlayerState`. Every error inside it (unparseable text, a property
   * read on `null`, a seek that raises) is caught and leaves the player as it
   * was. With the element ready it seeks now; otherwise it leaves one one-shot
   * listener for `loadedmetadata` and one for `canplay`.
   */
  function Restore(store: Store, p: Player): (r: Player)
    ensures r.listIndex == p.listIndex
    ensures p.audio.None? ==> r == p
    ensures StateKey !in store ==> r == p
    ensures StateKey in store && store[StateKey].Corrupt? ==> r == p
    ensures StateKey in store && store[StateKey].Parsed? ==>
      var j := store[StateKey].value;
      !(j.JObj? && "currentTime" in j.fields) ==> r == p
    ensures StateKey in store && store[StateKey].Parsed? && p.audio.Some? ==>
      var j := store[StateKey].value;
      var a := p.audio.value;
      j.JObj? && "currentTime" in j.fields && j.fields["currentTime"].JNum? && a.readyState >= HaveCurrentData ==>
        && r.audio.Some?
        && r.audio.value.currentTime == j.fields["currentTime"].x
        && r.audio.value.playCalls == a.playCalls + (if Resume(j) && a.paused then 1 else 0)
        && r.audio.value.handlers == a.handlers
    ensures StateKey in store && store[StateKey].Parsed? && p.audio.Some? ==>
      var j := store[StateKey].value;
      var a := p.audio.value;
      && j.JObj? && "currentTime" in j.fields && a.readyState >= HaveCurrentData
      && SeekTarget(j.fields["currentTime"]).Some? ==>
        r == p.(audio := SeekAndResume(a, j.fields["currentTime"], Resume(j)))
    ensures StateKey in store && store[StateKey].Parsed? && p.audio.Some? ==>
      var j := store[StateKey].value;
      var a := p.audio.value;
      && j.JObj? && "currentTime" in j.fields && a.readyState >= HaveCurrentData
      && SeekTarget(j.fields["currentTime"]).None? ==>
        r == p
    ensures StateKey in store && store[StateKey].Parsed? && p.audio.Some? ==>
      var j := store[StateKey].value;
      var a := p.audio.value;
      j.JObj? && "currentTime" in j.fields && a.readyState < HaveCurrentData ==>
        r == p.(audio := Some(a.(handlers := a.handlers + [
               Handler(LoadedMetadata, j.fields["currentTime"], Resume(j)),
               Handler(CanPlay, j.fields["currentTime"], Resume(j))])))
  {
    if StateKey !in store then p
    else match store[StateKey]
      case Corrupt => p
      case Parsed(state) =>
        match p.audio
        case None => p
        case Some(a) =>
          match Prop(state, "currentTime")
          case Failure(_) => p
          case Success(None) => p
          case Success(Some(t)) =>
            if a.readyState >= HaveCurrentData then
              match SeekAndResume(a, t, Resume(state))
              case None => p
              case Some(a') => p.(audio := Some(a'))
            else
              var deferred := [Handler(LoadedMetadata, t, Resume(state)), Handler(CanPlay, t, Resume(state))];
              p.(audio := Some(a.(handlers := a.handlers + deferred)))
  }

  /** The listeners waiting for `e`, in registration order. */
  function Pending(hs: seq<Handler>, e: MediaEvent): (r: seq<Handler>)
    ensures forall h :: h in r <==> h in hs && h.on == e
  {
    if hs == [] then []
    else (if hs[0].on == e then [hs[0]] else []) + Pending(hs[1..], e)
  }

  /** The listeners not waiting for `e`, in registration order. */
  function Others(hs: seq<Handler>, e: MediaEvent): (r: seq<Handler>)
    ensures forall h :: h in r <==> h in hs && h.on != e
  {
    if hs == [] then []
    else (if hs[0].on != e then [hs[0]] else []) + Others(hs[1..], e)
  }

  lemma {:induction false} PendingAppend(a: seq<Handler>, b: seq<Handler>, e: MediaEvent)
    ensures Pending(a + b, e) == Pending(a, e) + Pending(b, e)
  {
    if a == [] {
      assert a + b == b;
    } else {
      assert (a + b)[1..] == a[1..] + b;
      PendingAppend(a[1..], b, e);
    }
  }

  lemma {:induction false} OthersAppend(a: seq<Handler>, b: seq<Handler>, e: MediaEvent)
    ensures Others(a + b, e) == Others(a, e) + Others(b, e)
  {
    if a == [] {
      assert a + b == b;
    } else {
      assert (a + b)[1..] == a[1..] + b;
      OthersAppend(a[1..], b, e);
    }
  }

  /** Runs listeners in order; one that raises does not stop the next. */
  function RunHandlers(a: Audio, hs: seq<Handler>): (r: Audio)
    ensures r.handlers == a.handlers
    ensures r.readyState == a.readyState && r.autoplayAllowed == a.autoplayAllowed
    ensures hs == [] ==> r == a
    ensures r.playCalls <= a.playCalls + |hs|
    ensures |hs| > 0 && SeekTarget(hs[|hs| - 1].target).Some? ==>
      r.currentTime == SeekTarget(hs[|hs| - 1].target).value
    decreases hs
  {
    if hs == [] then a
    else
      var next := match SeekAndResume(a, hs[0].target, hs[0].resume)
                  case None => a
                  case Some(a') => a';
      RunHandlers(next, hs[1..])
  }

  /**
   * Dispatches a readiness signal: every listener registered for it runs once
   * and is removed (`{ once: true }`); the others stay.
   */
  function FireMedia(a: Audio, e: MediaEvent): (r: Audio)
    ensures r.handlers == Others(a.handlers, e)
    ensures forall h :: h in r.handlers ==> h.on != e
    ensures Pending(a.handlers, e) == [] ==> r == a.(handlers := Others(a.handlers, e))
  {
    RunHandlers(a.(handlers := Others(a.handlers, e)), Pending(a.handlers, e))
  }

  /** Each listener fires at most once: a second identical signal finds nothing to run. */
  lemma FireMediaTwice(a: Audio, e: MediaEvent)
    ensures FireMedia(FireMedia(a, e), e) == FireMedia(a, e)
  {
    var once := FireMedia(a, e);
    OthersIdempotent(once.handlers, e);
  }

  lemma {:induction false} OthersIdempotent(hs: seq<Handler>, e: MediaEvent)
    requires forall h :: h in hs ==> h.on != e
    ensures Others(hs, e) == hs
  {
    if hs != [] {
      assert hs[0] in hs;
      assert forall h :: h in hs[1..] ==> h in hs;
      OthersIdempotent(hs[1..], e);
      assert hs == [hs[0]] + hs[1..];
    }
  }

  /**
   * A deferred restore performs, on `loadedmetadata`, the same seek and resume
   * an immediate restore performs on a ready element.
   */
  lemma DeferredRestoreOnLoadedMetadata(store: Store, p: Player, s: Snapshot)
    requires Load(store) == Some(s)
    requires p.audio.Some? && p.audio.value.readyState < HaveCurrentData
    requires Pending(p.audio.value.handlers, LoadedMetadata) == []
    ensures var fired := FireMedia(Restore(store, p).audio.value, LoadedMetadata);
      && fired.currentTime == s.currentTime
      && fired.playCalls == p.audio.value.playCalls + (if s.isPlaying && p.audio.value.paused then 1 else 0)
      && fired.paused == (p.audio.value.paused && !(s.isPlaying && p.audio.value.autoplayAllowed))
      && fired.handlers == Others(p.audio.value.handlers, LoadedMetadata) + [Handler(CanPlay, JNum(s.currentTime), s.isPlaying)]
  {
    RestoreDefers(store, p, s);
    FireDeferred(p.audio.value, s);
  }

  /** On an element that is not ready, a restore of a full snapshot only appends the two listeners. */
  lemma RestoreDefers(store: Store, p: Player, s: Snapshot)
    requires Load(store) == Some(s)
    requires p.audio.Some? && p.audio.value.readyState < HaveCurrentData
    ensures Restore(store, p).audio == Some(p.audio.value.(handlers := p.audio.value.handlers + [
      Handler(LoadedMetadata, JNum(s.currentTime), s.isPlaying),
      Handler(CanPlay, JNum(s.currentTime), s.isPlaying)]))
  {
  }

  lemma FireDeferred(a: Audio, s: Snapshot)
    requires Pending(a.handlers, LoadedMetadata) == []
    ensures var hL := Handler(LoadedMetadata, JNum(s.currentTime), s.isPlaying);
      var hC := Handler(CanPlay, JNum(s.currentTime), s.isPlaying);
      var fired := FireMedia(a.(handlers := a.handlers + [hL, hC]), LoadedMetadata);
      && fired.currentTime == s.currentTime
      && fired.playCalls == a.playCalls + (if s.isPlaying && a.paused then 1 else 0)
      && fired.paused == (a.paused && !(s.isPlaying && a.autoplayAllowed))
      && fired.handlers == Others(a.handlers, LoadedMetadata) + [hC]
  {
    var hL := Handler(LoadedMetadata, JNum(s.currentTime), s.isPlaying);
    var hC := Handler(CanPlay, JNum(s.currentTime), s.isPlaying);
    var deferred := a.(handlers := a.handlers + [hL, hC]);
    PendingAppend(a.handlers, [hL, hC], LoadedMetadata);
    OthersAppend(a.handlers, [hL, hC], LoadedMetadata);
    SplitPair(hL, hC);
    assert Pending(deferred.handlers, LoadedMetadata) == [hL];
    RunSingle(deferred.(handlers := Others(deferred.handlers, LoadedMetadata)), hL);
  }

  lemma SplitPair(hL: Handler, hC: Handler)
    requires hL.on == LoadedMetadata && hC.on == CanPlay
    ensures Pending([hL, hC], LoadedMetadata) == [hL]
    ensures Others([hL, hC], LoadedMetadata) == [hC]
    ensures Pending([hL, hC], CanPlay) == [hC]
    ensures Others([hL, hC], CanPlay) == [hL]
  {
    assert Pending([hC], LoadedMetadata) == [];
    assert Others([hC], LoadedMetadata) == [hC];
    assert Pending([hC], CanPlay) == [hC];
    assert Others([hC], CanPlay) == [];
  }

  lemma RunSingle(a: Audio, h: Handler)
    requires SeekTarget(h.target).Some?
    ensures RunHandlers(a, [h]) == SeekAndResume(a, h.target, h.resume).value
  {
  }

  /**
   * On a fresh element that is not ready, `loadedmetadata` and then `canplay`
   * both seek to the saved time; when autoplay is allowed, `play()` is called
   * at most once between them, because the second listener finds the element playing.
   */
  lemma DeferredResumesOnce(store: Store, p: Player, s: Snapshot)
    requires Load(store) == Some(s)
    requires p.audio.Some? && p.audio.value.readyState < HaveCurrentData
    requires p.audio.value.handlers == [] && p.audio.value.autoplayAllowed
    ensures var a := p.audio.value;
      var done := FireMedia(FireMedia(Restore(store, p).audio.value, LoadedMetadata), CanPlay);
      && done.currentTime == s.currentTime
      && done.playCalls == a.playCalls + (if s.isPlaying && a.paused then 1 else 0)
      && done.paused == (a.paused && !s.isPlaying)
      && done.handlers == []
  {
    var hC := Handler(CanPlay, JNum(s.currentTime), s.isPlaying);
    DeferredRestoreOnLoadedMetadata(store, p, s);
    var fired := FireMedia(Restore(store, p).audio.value, LoadedMetadata);
    assert Others([], LoadedMetadata) == [];
    assert fired.handlers == [hC];
    assert [hC][1..] == [];
    assert Pending([hC], CanPlay) == [hC] + Pending([], CanPlay);
    assert Others([hC], CanPlay) == [] + Others([], CanPlay);
    RunSingle(fired.(handlers := []), hC);
  }

  /**
   * When the element already has its metadata, `loadedmetadata` does not come
   * again: `canplay` alone performs the same seek and resume, and the
   * `loadedmetadata` listener stays registered.
   */
  lemma DeferredRestoreOnCanPlay(store: Store, p: Player, s: Snapshot)
    requires Load(store) == Some(s)
    requires p.audio.Some? && p.audio.value.readyState < HaveCurrentData
    requires Pending(p.audio.value.handlers, CanPlay) == []
    ensures var a := p.audio.value;
      var fired := FireMedia(Restore(store, p).audio.value, CanPlay);
      && fired.currentTime == s.currentTime
      && fired.playCalls == a.playCalls + (if s.isPlaying && a.paused then 1 else 0)
      && fired.paused == (a.paused && !(s.isPlaying && a.autoplayAllowed))
      && fired.handlers == Others(a.handlers, CanPlay) + [Handler(LoadedMetadata, JNum(s.currentTime), s.isPlaying)]
  {
    var a := p.audio.value;
    var hL := Handler(LoadedMetadata, JNum(s.currentTime), s.isPlaying);
    var hC := Handler(CanPlay, JNum(s.currentTime), s.isPlaying);
    RestoreDefers(store, p, s);
    var deferred := a.(handlers := a.handlers + [hL, hC]);
    PendingAppend(a.handlers, [hL, hC], CanPlay);
    OthersAppend(a.handlers, [hL, hC], CanPlay);
    SplitPair(hL, hC);
    RunSingle(deferred.(handlers := Others(deferred.handlers, CanPlay)), hC);
  }

  /**
   * The listener left behind by a restore that `canplay` completed fires on
   * the element's next metadata load and seeks back to the saved time,
   * wherever playback has moved since.
   */
  lemma StaleListenerSeeksBack(a: Audio, s: Snapshot)
    requires a.handlers == [Handler(LoadedMetadata, JNum(s.currentTime), s.isPlaying)]
    ensures var fired := FireMedia(a, LoadedMetadata);
      fired.currentTime == s.currentTime && fired.handlers == []
  {
    var hL := a.handlers[0];
    assert Pending(a.handlers, LoadedMetadata) == [hL] + Pending([], LoadedMetadata);
    assert Others(a.handlers, LoadedMetadata) == [] + Others([], LoadedMetadata);
    RunSingle(a.(handlers := []), hL);
  }

  /** After `ended` a restore changes nothing. */
  lemma RestoreAfterEnded(store: Store, p: Player)
    ensures Restore(Ended(store), p) == p
  {
  }

  /**
   * The navigation scenario: a save from one instance followed by a restore
   * into a ready element of the next puts the new element at the saved time
   * and calls `play()` exactly when the old one was playing and the new one is paused.
   */
  lemma SaveThenRestore(store: Store, prev: Player, next: Player)
    requires prev.audio.Some? && next.audio.Some?
    requires next.audio.value.readyState >= HaveCurrentData
    ensures var r := Restore(Save(store, prev, false), next).audio.value;
      && r.currentTime == prev.audio.value.currentTime
      && r.playCalls == next.audio.value.playCalls + (if !prev.audio.value.paused && next.audio.value.paused then 1 else 0)
  {
  }
}

=== FILE: storage.dfy ===
/**
 * The browser's `localStorage`, seen through `JSON.parse`: each key holds
 * either text that parses to a value or text that does not parse.
 */
module Storage {
  import opened Json

  /** What one key holds. */
  datatype Entry = Parsed(value: Json) | Corrupt

  /** The whole store: a key is present exactly when `getItem` returns non-empty text for it. */
  type Store = map<string, Entry>

  /** Two stores agree on every key other than `key`. */
  ghost predicate SameExcept(a: Store, b: Store, key: string) {
    forall k :: k != key ==> (k in a <==> k in b) && (k in a ==> a[k] == b[k])
  }
}

=== FILE: style_status.dfy ===
/**
 * The theme's persisted style status: `main.styleStatus` and its defaults,
 * `setStyleStatus` and `getStyleStatus` of js/main.js. A status maps each of
 * its keys to a script value, which may be `undefined` (`None`).
 */
module StyleStatus {
  import opened Wrappers
  import opened Json
  import opened Storage

  /** `main.localStorageKey`. */
  const StatusKey: string := "REDEFINE-THEME-STATUS"

  const ExpandKey: string := "isExpandPageWidth"
  const DarkKey: string := "isDark"
  const FontKey: string := "fontSizeLevel"
  const AsideKey: string := "isOpenPageAside"

  type Status = map<string, Option<Json>>

  /**
   * The initial `main.styleStatus`. `isDark` is
   * `default_mode && default_mode === "dark"`: with an unset or empty mode it
   * is that falsy value itself, not `false`.
   */
  function Defaults(defaultMode: Option<string>): (s: Status)
    ensures s.Keys == {ExpandKey, DarkKey, FontKey, AsideKey}
    ensures s[ExpandKey] == Some(JBool(false))
    ensures s[FontKey] == Some(JNum(0.0))
    ensures s[AsideKey] == Some(JBool(true))
    ensures Truthy(s[DarkKey]) <==> defaultMode == Some("dark")
  {
    var dark := match defaultMode
                case None => None
                case Some(m) => if m == "" then Some(JStr(m)) else Some(JBool(m == "dark"));
    map[ExpandKey := Some(JBool(false)), DarkKey := dark, FontKey := Some(JNum(0.0)), AsideKey := Some(JBool(true))]
  }

  /** `JSON.stringify` of a status: keys holding `undefined` are left out. */
  function Serialize(s: Status): (j: Json)
    ensures j.JObj?
    ensures forall k :: k in j.fields <==> k in s && s[k].Some?
    ensures forall k :: k in j.fields ==> Some(j.fields[k]) == s[k]
  {
    JObj(map k | k in s && s[k].Some? :: s[k].value)
  }

  /** `setStyleStatus`: stores the serialised status under the status key, and nothing else. */
  function SetStyleStatus(store: Store, s: Status): (r: Store)
    ensures StatusKey in r && r[StatusKey] == Parsed(Serialize(s))
    ensures SameExcept(store, r, StatusKey)
  {
    store[StatusKey := Parsed(Serialize(s))]
  }

  /** What `getStyleStatus` returns (the parsed value, or `null`) and what `main.styleStatus` holds afterwards. */
  datatype Got = Got(returned: Json, status: Status)

  /**
   * `getStyleStatus`. Nothing stored: returns `null`, status untouched.
   * Otherwise it parses (unguarded, so unparseable text raises), then assigns
   * every key the status already has from the parsed object, `undefined`
   * where the object lacks it; other stored keys are not copied. A stored
   * `null` raises on the first key read, before any assignment.
   */
  function GetStyleStatus(store: Store, s: Status): (r: Result<Got, Error>)
    ensures StatusKey !in store ==> r == Success(Got(JNull, s))
    ensures StatusKey in store && store[StatusKey].Corrupt? ==> r == Failure(SyntaxError)
    ensures r.Success? ==> r.value.status.Keys == s.Keys
    ensures r.Success? && StatusKey in store ==>
      && store[StatusKey].Parsed?
      && r.value.returned == store[StatusKey].value
      && forall k :: k in s ==>
           r.value.status[k] == (var j := store[StatusKey].value;
                                 if j.JObj? && k in j.fields then Some(j.fields[k]) else None)
    ensures StatusKey in store && store[StatusKey] == Parsed(JNull) && s != map[] ==> r == Failure(TypeError)
    ensures r.Failure? ==> StatusKey in store && (store[StatusKey].Corrupt? || (store[StatusKey].value.JNull? && s != map[]))
  {
    if StatusKey !in store then Success(Got(JNull, s))
    else match store[StatusKey]
      case Corrupt => Failure(SyntaxError)
      case Parsed(temp) =>
        if temp.JNull? && s != map[] then Failure(TypeError)
        else Success(Got(temp, map k | k in s :: Prop(temp, k).value))
  }

  /** A set followed by a get leaves the status as it was and returns what was stored. */
  lemma SetThenGet(store: Store, s: Status)
    ensures GetStyleStatus(SetStyleStatus(store, s), s) == Success(Got(Serialize(s), s))
  {
    var r := GetStyleStatus(SetStyleStatus(store, s), s);
    assert r.Success?;
    var after := r.value.status;
    forall k | k in s
      ensures after[k] == s[k]
    {
      if s[k].Some? {
        assert k in Serialize(s).fields;
      } else {
        assert k !in Serialize(s).fields;
      }
    }
    assert after == s;
  }

  /** A second get from the same storage changes nothing more. */
  lemma GetIdempotent(store: Store, s: Status)
    requires GetStyleStatus(store, s).Success?
    ensures var once := GetStyleStatus(store, s).value.status;
      GetStyleStatus(store, once) == Success(Got(GetStyleStatus(store, s).value.returned, once))
  {
  }
}

=== FILE: toc_toggle.dfy ===
/**
 * The table-of-contents toggle of js/tools/tocToggle.js. Each element the
 * object looks up is either missing (`None`) or present with its class list.
 */
module TocToggle {
  import opened Wrappers
  import opened Json
  import opened Storage
  import StyleStatus

  type Classes = set<string>

  const Fas: string := "fas"
  const FaIndent: string := "fa-indent"
  const FaOutdent: string := "fa-outdent"
  const ShowToc: string := "show-toc"
  const HasToc: string := "has-toc"

  /**
   * The `TocToggle` object. `barPresent`: `.page-aside-toggle` exists, and so
   * the click listener was attached; `barFlex`: its display was set to "flex".
   */
  datatype Toc = Toc(
    barPresent: bool,
    barFlex: bool,
    icon: Option<Classes>,
    post: Option<Classes>,
    mainContent: Option<Classes>,
    isOpen: bool)

  /** The page the toggle and the theme status live in. */
  datatype World = World(toc: Toc, status: StyleStatus.Status, store: Store)

  /** `initTocToggle` over the elements found on the page: the flag starts closed. */
  function Init(barPresent: bool, icon: Option<Classes>, post: Option<Classes>, mainContent: Option<Classes>): (t: Toc)
    ensures !t.isOpen && !t.barFlex
    ensures t.barPresent == barPresent && t.icon == icon && t.post == post && t.mainContent == mainContent
  {
    Toc(barPresent, false, icon, post, mainContent, false)
  }

  /** `toggleClassName`: `classList.toggle(c, cond)` on a present element; a missing one is skipped. */
  function ToggleClassName(el: Option<Classes>, c: string, cond: bool): (r: Option<Classes>)
    ensures r.Some? <==> el.Some?
    ensures r.Some? ==> (c in r.value <==> cond)
    ensures r.Some? ==> forall x :: x != c ==> (x in r.value <==> x in el.value)
  {
    match el
    case None => None
    case Some(cs) => Some(if cond then cs + {c} else cs - {c})
  }

  /** `changePageLayoutWhenOpenToggle`. */
  function Layout(t: Toc, isOpen: bool): (r: Toc)
    ensures r.isOpen == t.isOpen && r.barPresent == t.barPresent && r.barFlex == t.barFlex
    ensures r.icon.Some? <==> t.icon.Some?
    ensures r.post.Some? <==> t.post.Some?
    ensures r.mainContent.Some? <==> t.mainContent.Some?
    ensures r.icon.Some? ==>
      && (Fas in r.icon.value <==> isOpen)
      && (FaIndent in r.icon.value <==> isOpen)
      && (FaOutdent in r.icon.value <==> !isOpen)
      && forall x :: x !in {Fas, FaIndent, FaOutdent} ==> (x in r.icon.value <==> x in t.icon.value)
    ensures r.post.Some? ==>
      && (ShowToc in r.post.value <==> isOpen)
      && forall x :: x != ShowToc ==> (x in r.post.value <==> x in t.post.value)
    ensures r.mainContent.Some? ==>
      && (HasToc in r.mainContent.value <==> isOpen)
      && forall x :: x != HasToc ==> (x in r.mainContent.value <==> x in t.mainContent.value)
  {
    var icon := ToggleClassName(ToggleClassName(ToggleClassName(t.icon, Fas, isOpen), FaIndent, isOpen), FaOutdent, !isOpen);
    t.(icon := icon,
       post := ToggleClassName(t.post, ShowToc, isOpen),
       mainContent := ToggleClassName(t.mainContent, HasToc, isOpen))
  }

  /** The icon never shows both the indent and the outdent glyph after a layout. */
  lemma LayoutExclusive(t: Toc, isOpen: bool)
    ensures var r := Layout(t, isOpen);
      r.icon.Some? ==> !(FaIndent in r.icon.value && FaOutdent in r.icon.value)
  {
  }

  /** The classes the layout manages depend on the flag alone; a second layout with the same flag changes nothing. */
  lemma LayoutIdempotent(t: Toc, isOpen: bool)
    ensures Layout(Layout(t, isOpen), isOpen) == Layout(t, isOpen)
  {
    var once := Layout(t, isOpen);
    var twice := Layout(once, isOpen);
    if t.icon.Some? {
      assert twice.icon.value == once.icon.value;
    }
    if t.post.Some? {
      assert twice.post.value == once.post.value;
    }
    if t.mainContent.Some? {
      assert twice.mainContent.value == once.mainContent.value;
    }
  }

  /** The class lists agree with the flag. */
  predicate Consistent(t: Toc) {
    Layout(t, t.isOpen) == t
  }

  /** The toggle bar's click handler: flip, mirror into the status, persist, re-layout. Without a bar no listener exists. */
  function Click(w: World): (r: World)
    ensures !w.toc.barPresent ==> r == w
    ensures w.toc.barPresent ==>
      && r.toc.isOpen == !w.toc.isOpen
      && r.status == w.status[StyleStatus.AsideKey := Some(JBool(r.toc.isOpen))]
      && r.store == StyleStatus.SetStyleStatus(w.store, r.status)
      && Consistent(r.toc)
      && r.toc == Layout(w.toc.(isOpen := !w.toc.isOpen), !w.toc.isOpen)
  {
    if !w.toc.barPresent then w
    else
      var flag := !w.toc.isOpen;
      var status := w.status[StyleStatus.AsideKey := Some(JBool(flag))];
      LayoutIdempotent(w.toc.(isOpen := flag), flag);
      World(Layout(w.toc.(isOpen := flag), flag), status, StyleStatus.SetStyleStatus(w.store, status))
  }

  /** After a click the persisted status reads back with the new flag. */
  lemma ClickPersists(w: World)
    requires w.toc.barPresent
    ensures var r := Click(w);
      StyleStatus.GetStyleStatus(r.store, r.status) == Success(StyleStatus.Got(StyleStatus.Serialize(r.status), r.status))
      && r.status[StyleStatus.AsideKey] == Some(JBool(r.toc.isOpen))
  {
    StyleStatus.SetThenGet(w.store, Click(w).status);
  }

  /** Two clicks from a consistent toggle restore the flag and every class list. */
  lemma TwoClicksRestore(w: World)
    requires Consistent(w.toc)
    ensures Click(Click(w)).toc == w.toc
  {
    if w.toc.barPresent {
      var t := w.toc;
      var once := Click(w).toc;
      var twice := Click(Click(w)).toc;
      assert twice.isOpen == t.isOpen;
      assert twice.icon == t.icon by {
        if t.icon.Some? {
          assert twice.icon.value == t.icon.value;
        }
      }
      assert twice.post == t.post by {
        if t.post.Some? {
          assert twice.post.value == t.post.value;
        }
      }
      assert twice.mainContent == t.mainContent by {
        if t.mainContent.Some? {
          assert twice.mainContent.value == t.mainContent.value;
        }
      }
    }
  }

  /** `pageAsideHandleOfTOC`: sets the flag and the layout; without the toggle bar it raises before changing anything. */
  function PageAsideHandle(t: Toc, isOpen: bool): (r: Result<Toc, Error>)
    ensures !t.barPresent ==> r == Failure(TypeError)
    ensures t.barPresent ==> r.Success? && r.value.isOpen == isOpen && r.value.barFlex && Consistent(r.value)
    ensures t.barPresent ==> r.value == Layout(t.(barFlex := true, isOpen := isOpen), isOpen)
  {
    if !t.barPresent then Failure(TypeError)
    else
      LayoutIdempotent(t.(barFlex := true, isOpen := isOpen), isOpen);
      Success(Layout(t.(barFlex := true, isOpen := isOpen), isOpen))
  }
}

=== FILE: wrappers.dfy ===
/** Option and Result, shared by every module of the model. */
module Wrappers {

  /** An optional value; also stands for a script value that may be `undefined`. */
  datatype Option<+T> = None | Some(value: T) {

    /** The wrapped value, or `default` when there is none. */
    function GetOr(default: T): T {
      match this
      case Some(v) => v
      case None => default
    }
  }

  /** The outcome of an operation that may raise: a value, or the error it raised. */
  datatype Result<+R, +E> = Success(value: R) | Failure(error: E)
}
